=== FILE: README.md ===
# Planetarium star-catalog core, modelled in Dafny

`Planetarium.py` builds a Blender planetarium: it reads two Hipparcos star
catalogs as CSV rows, turns each row into a star record (catalog number, a
point on a sphere of radius 100, right ascension and declination in radians,
a display size, a colour index), stores the records in SQLite, and draws
constellation lines as thin tubes between stars. This project models the
pure data transforms in the middle of that pipeline and proves what they
promise:

- `Color.hex_to_rgb` (module `HexColor`): strip whitespace and `#`, cut the
  string into two-character chunks, parse each as base 16, scale by
  `max / 255`, and append the alpha value when it lies in `[0, 1]`.
- `trans_lon_coordinate`, `trans_lat_coordinate`, `% 360` and `math.radians`
  (module `Angles`).
- `Calculate_xyz` and its inlined copies (module `Sphere`).
- `trans_hip_base`, `trans_hip_line`, the brightness-to-size rule,
  `color_ref` and `colors`, and the constellation-label position (module
  `Stars`).
- The loop that builds `star_list`: bright-star rows whose raw catalog
  number is not a constellation-line star, then every line star (module
  `Aggregate`).
- The vertex and face lists of `create_line_cube`, including
  `numpy.linspace` and `np.deg2rad` (module `Tube`).

Python's string handling that these transforms rely on (`str.strip`,
`int(text)`, `float(text)`, and `str(n)` as the inverse used in round-trip
lemmas) lives in module `Text`; module `Results` holds the `Result` type
that stands for "returns a value or raises IndexError/ValueError".

Numbers are exact: `int` for Python integers and `real` for Python floats,
so every identity proved here holds exactly of the model and up to rounding
of the program. `math.pi` is the exact value of the double Python uses,
884279719003555 / 2^48. Sine and cosine are not computed: they arrive as a
`Sphere.Trig` value holding two arbitrary functions, and the sphere lemmas
assume only `cos(a)^2 + sin(a)^2 = 1` at the angles they use.

Four behaviours of the code are worth stating plainly, because a reader
might expect otherwise:

- The hemisphere flag is applied after `% 360` and `math.radians`
  (Planetarium.py:96-99), so a southern declination lands in `(-2 pi, 0]`.
  `Stars.BaseStar` does the same.
- A tube with fewer than two samples is not rejected: `div = 0` gives an
  empty mesh, `div = 1` four vertices and no faces, and only a negative
  `div` raises ValueError (from `linspace`). `Tube.BuildTube` does the same.
- The line-star numbers are kept as a list of the raw field-0 strings
  (Planetarium.py:313), and membership is tested in that list; the model
  keeps the list. The test compares text, not numbers: a bright star
  written "07" is not dropped by a line star written "7", so that star is
  listed twice (`Aggregate.KeptComparesText`, `Text.LeadingZeroSameNumber`).
- `strip()` and `int()`/`float()` skip different whitespace: the separator
  controls U+001C to U+001F are removed by `strip()` but make `int()` and
  `float()` raise. `Text.IsSpace` and `Text.IsNumberSpace` keep the two
  apart.

## Model

| member | source | states |
|---|---|---|
| Text.Strip | Planetarium.py:24 | `strip` never lengthens the text, and neither end of its result is a character it strips |
| Text.StripLeftSuffix | Planetarium.py:24 | stripping on the left removes only characters it strips, and the rest of the text is kept unchanged |
| Text.StripRightPrefix | Planetarium.py:24 | stripping on the right removes only characters it strips, and the start of the text is kept unchanged |
| Text.StripPadded | Planetarium.py:24 | whatever padding of stripped characters surrounds a core whose ends are kept, `strip` returns exactly that core |
| Text.StripUnpadded | Planetarium.py:24 | text whose two ends are kept is returned unchanged by `strip` |
| Text.StripIdempotent | Planetarium.py:24 | stripping twice gives the same as stripping once |
| Text.PointIndex | Planetarium.py:122 | the position `float()` splits a decimal at is the first '.', or the end when there is none |
| Text.ParseInt | Planetarium.py:122 | `int(text)` in base 10; `ParseIntDigits` gives its value on every accepted shape, `ParseIntShape` says what a success looks like, and `ParseIntShowInt` reads back `str(n)` |
| Text.ParseIntDigits | Planetarium.py:122 | `int()` of any non-empty digit run, leading zeros allowed, behind no sign, '+' or '-', padded by any whitespace `int()` skips, is the number the digits denote, negated after '-' (so "+5", "007" and "-0" read as 5, 7 and 0) |
| Text.LeadingZeroValue | Planetarium.py:103 | a zero in front of a digit run does not change the number it denotes |
| Text.LeadingZeroSameNumber | Planetarium.py:103 | `int("0" + w)` and `int(w)` are the same number for every digit run `w`, e.g. "07" and "7" |
| Text.ParseIntShape | Planetarium.py:122 | `int(text)` raises ValueError naming the text; on success the text without the whitespace `int()` skips ends in a digit and starts with '-' when the value is negative |
| Text.SeparatorIsNotNumberSpace | Planetarium.py:24 | U+001C before a number is removed by `strip()` but makes `int()` raise |
| Text.ShowNat | Planetarium.py:122 | `str(n)` is not called at this line; it is the inverse against which `int()`'s round trip is stated: a non-empty digit run that denotes `n` |
| Text.ShowInt | Planetarium.py:122 | `str(n)` is not called at this line; it is the inverse for `int()`'s round trip, and neither of its ends is whitespace |
| Text.ParseIntShowInt | Planetarium.py:122 | `int()` reads back every integer written by `str()`, padded on either side by any run of the whitespace `int()` skips |
| Text.DecimalOfDigits | Planetarium.py:122 | a digit run without a point is a valid decimal whose value is the integer it denotes |
| Text.DecimalWithPoint | Planetarium.py:122 | digits, a point and digits form a valid decimal worth the whole part plus the fraction over ten to its length |
| Text.ParseDecimal | Planetarium.py:102 | `float(text)` on plain decimals; `ParseDecimalPointed` (with `PointValue(w, f) = w + f / 10^len(f)`) and `ParseDecimalDigits` give its value on every accepted shape, and `ParseDecimalShape` says what a success looks like |
| Text.ShiftedIsRatio | Planetarium.py:102 | moving a digit run's value `n` places right of the point divides it by `10^n`, so `PointValue(w, f)` is `w + f / 10^len(f)` |
| Text.PointValueWhole | Planetarium.py:102 | the digits before the point are the integer part of the value: the fraction digits add less than one |
| Text.ParseDecimalPointed | Planetarium.py:102 | `float()` of digits `w`, a point and digits `f` (either run empty but not both, leading zeros allowed), behind no sign, '+' or '-', with skipped-whitespace padding, is `w + f / 10^len(f)`, negated after '-' (so "5.03", "-.5" and "5." read as 5.03, -0.5 and 5) |
| Text.ParseDecimalDigits | Planetarium.py:102 | `float()` of a signed or unsigned digit run without a point, with padding, is the integer the digits denote, negated after '-' |
| Text.ParseDecimalShape | Planetarium.py:102 | `float(text)` raises ValueError naming the text; on success the text without the skipped whitespace is not blank and starts with '-' when the value is negative |
| Text.ParseDecimalShowInt | Planetarium.py:122 | `float()` of an integer's decimal form is that integer |
| HexColor.Stripped | Planetarium.py:24 | `hex.strip().strip("#")` never lengthens the text, and neither end of the result is a '#'; `StrippedHashHex` says what it removes from a '#' colour |
| HexColor.Chunks | Planetarium.py:25 | the `range(0, len, 2)` slicing yields `(len + 1) / 2` chunks of one or two characters |
| HexColor.ChunkAt | Planetarium.py:25 | chunk `i` is exactly the slice `hex[2i : 2i + 2]`, cut short at the end |
| HexColor.ParseHexChunk | Planetarium.py:25 | `int(chunk, 16)` of a chunk lies in `[-15, 255]`, is negative only after a '-', and two hex digits always parse to a value in `[0, 255]`; `ParseHexChunkAgrees` states exactly when it raises |
| HexColor.ParseHex | Planetarium.py:25 | `int(text, 16)` without the `0x` prefix raises ValueError naming the text, and succeeds only when the text without skipped whitespace ends in a hex digit |
| HexColor.ParseHexChunkAgrees | Planetarium.py:25 | on every one- or two-character chunk the chunk parser gives exactly what `int(chunk, 16)` gives, value and failure alike |
| HexColor.Components | Planetarium.py:25 | the list comprehension succeeds exactly when every chunk parses, and then holds one scaled value per chunk in order |
| HexColor.HexChunks | Planetarium.py:24-25 | the number of chunks is half the stripped length, rounded up |
| HexColor.RgbOfChunks | Planetarium.py:25-27 | the tuple has one scaled component per chunk, plus the alpha value as last element exactly when it lies in `[0, 1]` |
| HexColor.HexToRgb | Planetarium.py:22-27 | `hex_to_rgb` fails exactly when some chunk of the stripped text is not base 16; otherwise one component per chunk, each the chunk's value times `max / 255`, and one extra alpha component iff `0 <= Trans <= 1` |
| HexColor.ChunkOfHexPairs | Planetarium.py:25 | an even-length run of hex digits is cut into chunks of exactly two hex digits |
| HexColor.ComponentBound | Planetarium.py:23-25 | a byte value scaled by `max / 255` lies in `[0, max]` |
| HexColor.ComponentsInRange | Planetarium.py:22-27 | a colour written as whole two-digit hex chunks parses, and every colour component lies in `[0, max]` |
| HexColor.Encode | Planetarium.py:22-27 | the inverse direction: bytes written as two lower-case hex digits each, twice as long as the byte list |
| HexColor.ChunksOfEncode | Planetarium.py:25 | every chunk of an encoded colour parses back to its byte |
| HexColor.StrippedHashHex | Planetarium.py:24 | a single leading '#' before hex digits is all that the two strips remove |
| HexColor.RgbOfByteChunks | Planetarium.py:25-27 | chunks that parse to given bytes give exactly those byte values at `max = 255` without alpha |
| HexColor.HexToRgbEncode | Planetarium.py:22-27 | round trip: `hex_to_rgb("#" + encoding, 255)` returns the original byte values, in order |
| Angles.LatDegrees | Planetarium.py:125-126 | with minutes in `[0, 60)` and seconds in `[0, 60)`, the declination lies in `[d, d + 1)` of its whole degrees |
| Angles.LonDegrees | Planetarium.py:121-122 | right ascension in degrees is 15 times the same triple read as degrees, minutes and seconds |
| Angles.LonMonotone | Planetarium.py:121-122 | right ascension does not decrease when hours, minutes or seconds grow |
| Angles.LatMonotone | Planetarium.py:125-126 | declination does not decrease when degrees, minutes or seconds grow |
| Angles.Mod360 | Planetarium.py:96-97 | Python's float `% 360` lands in `[0, 360)` and differs from its argument by whole turns |
| Angles.Mod360Turns | Planetarium.py:96-97 | adding whole turns to an angle does not change its `% 360` |
| Angles.Mod360Fixed | Planetarium.py:96-97 | an angle is its own `% 360` exactly when it lies in `[0, 360)` |
| Angles.Mod360Idempotent | Planetarium.py:96-97 | normalising a second time changes nothing |
| Angles.Mod360SameDirection | Planetarium.py:96-97 | two angles normalise alike exactly when they differ by whole turns |
| Angles.Radians | Planetarium.py:96-97 | `math.radians` is undone by `math.degrees` (`Degrees`), maps `[0, 360)` into `[0, 2 pi)` and keeps the sign |
| Angles.RadiansOfDegrees | Planetarium.py:96-97 | the other direction of the inverse: converting an angle's degrees back gives the angle |
| Angles.NormalRadians | Planetarium.py:110-111 | every catalog angle, after `% 360` and `math.radians`, lies in `[0, 2 pi)`, and in degrees it is an angle of `[0, 360)` in the same direction as its argument |
| Angles.NormalRadiansUnique | Planetarium.py:110-111 | that contract leaves no choice: an angle whose degrees lie in `[0, 360)` and point the way `deg` does is `radians(deg % 360)` |
| Sphere.CartesianOnSphere | Planetarium.py:201-208 | given cosine-sine pairs on the unit circle, the point lies at exactly `distance` from the origin |
| Sphere.CalculateXyz | Planetarium.py:201-208 | `Calculate_xyz` computes the point; its partner `CalculateXyzOnSphere` places it at exactly `distance` from the origin |
| Sphere.CalculateXyzOnSphere | Planetarium.py:201-208 | `Calculate_xyz(ra, dec, d)` satisfies `x^2 + y^2 + z^2 = d^2` whenever sine and cosine agree at both angles |
| Stars.Field | Planetarium.py:96-98 | reading field `i` succeeds exactly when the row has it, and raises IndexError otherwise |
| Stars.Brightness | Planetarium.py:102 | the size `max(0.3 - mag / 20, 0)` is never negative, is zero exactly for magnitude 6 and fainter, and is `0.3 - mag / 20` below that |
| Stars.BrightnessMonotone | Planetarium.py:114 | a fainter star is never larger, and strictly smaller while it is still brighter than magnitude 6 |
| Stars.SpectralColor | Planetarium.py:117 | `color_ref.get(spectral[0], 0)` raises IndexError exactly on an empty field, is a valid index of the eight colours, is 0 exactly for letters outside OBAFGKM, and otherwise names that letter's position |
| Stars.SpectralColorOfClass | Planetarium.py:265 | each class letter O, B, A, F, G, K, M selects colour 1 to 7 in that order, whatever follows it |
| Stars.ParseBaseRow | Planetarium.py:96-103 | the bright-star row reads succeed exactly when the row has at least nine fields and the eight numeric ones parse; the RA triple is fields 1-3 (`item[1:4]`), the declination triple fields 5-7 (`item[5:8]`), the magnitude field 8, the number field 0, and field 4 equal to "0" marks the south |
| Stars.BaseStar | Planetarium.py:96-103 | the right ascension lies in `[0, 2 pi)` and points, in degrees, the way the RA triple does; the declination, its sign undone for the south, points the way the declination triple does, within `(-2 pi, 0]` for the south and `[0, 2 pi)` otherwise; x, y, z are `Calculate_xyz` of those two angles at distance 100; the colour is 0 and the size follows the magnitude |
| Stars.TransHipBase | Planetarium.py:92-103 | `trans_hip_base` fails exactly when a field is missing or not a number; otherwise it keeps the catalog number, gives colour 0, the magnitude's size, a right ascension in `[0, 2 pi)` and a declination whose sign follows field 4; `TransHipBaseAngles` and `TransHipBasePosition` give the angles and the point from the row's fields |
| Stars.TransHipBaseAngles | Planetarium.py:96-99 | on a row, the right ascension is `radians(lon(item[1:4]) % 360)` and the declination `radians(lat(item[5:8]) % 360)`, negated exactly when field 4 is "0" |
| Stars.TransHipBasePosition | Planetarium.py:100-101 | on a row, x, y, z are the point at the star's own right ascension and declination at distance 100 |
| Stars.HemisphereFlag | Planetarium.py:98-99 | reading the same fields as southern negates the declination and keeps the number, right ascension, size and colour |
| Stars.ParseLineRow | Planetarium.py:110-117 | the line-star row reads succeed exactly when the row has at least fourteen fields, the eight numeric ones parse and the spectral type is non-empty; the RA triple is fields 1-3 (`item[1:4]`), the declination triple fields 4-6 (`item[4:7]`), the magnitude field 7, the number field 0, the colour that of field 13 |
| Stars.LineStar | Planetarium.py:110-117 | both angles lie in `[0, 2 pi)`; the right ascension points, in degrees, the way the RA triple does and the declination the way the declination triple does; x, y, z are `Calculate_xyz` of those angles at distance 100; colour and size come from the spectral type and the magnitude |
| Stars.TransHipLine | Planetarium.py:106-118 | `trans_hip_line` fails exactly when a field is missing, not a number, or the spectral type is empty; otherwise it keeps the catalog number, the colour of the spectral class and the magnitude's size; `TransHipLineAngles` and `TransHipLinePosition` give the angles and the point from the row's fields |
| Stars.TransHipLineAngles | Planetarium.py:110-111 | on a row, the right ascension is `radians(lon(item[1:4]) % 360)` and the declination `radians(lat(item[4:7]) % 360)` |
| Stars.TransHipLinePosition | Planetarium.py:112-113 | on a row, x, y, z are the point at the star's own right ascension and declination at distance 100 |
| Stars.StarColorInPalette | Planetarium.py:266-268 | every transformed star's colour indexes an existing entry of `colors` and `color_materials` |
| Stars.BaseStarOnSphere | Planetarium.py:100-101 | a bright star lies at distance 100 from the origin |
| Stars.LineStarOnSphere | Planetarium.py:112-113 | a constellation-line star lies at distance 100 from the origin |
| Stars.LabelPosition | Planetarium.py:405-407 | the label point from hours, minutes and whole degrees; its partner `LabelOnSphere` places it at distance 99 |
| Stars.LabelOnSphere | Planetarium.py:405-407 | a constellation name is placed at distance 99, just inside the stars |
| Aggregate.Ids | Planetarium.py:313 | the id list has one entry per line-star row, its raw field 0 |
| Aggregate.Kept | Planetarium.py:314-316 | the kept bright-star rows are rows of the catalog whose field 0 is not a line-star id, and every such row is kept |
| Aggregate.KeptConcat | Planetarium.py:314-316 | keeping rows commutes with splitting the catalog, so kept rows stay in catalog order |
| Aggregate.KeptExtremes | Planetarium.py:314-316 | with no overlap every bright star is kept; when every bright star is a line star none is |
| Aggregate.KeptAvoidsLineStars | Planetarium.py:313-316 | no kept row's raw field 0 equals a line-star row's field 0, so a star whose number both catalogs write identically enters the list only through the line stars |
| Aggregate.KeptComparesText | Planetarium.py:313-316 | a bright-star row numbered "07" is kept against a line star numbered "7", because the numbers are compared as text |
| Aggregate.LineIds | Planetarium.py:313 | building the id list raises IndexError exactly when some line-star row is empty |
| Aggregate.TransformKept | Planetarium.py:314-316 | the bright-star loop fails exactly when a row is empty or a kept row fails, and otherwise yields the transform of each kept row, in order |
| Aggregate.TransformAll | Planetarium.py:317-318 | the line-star loop fails exactly when some row fails, and otherwise yields the transform of each row, in order |
| Aggregate.StarList | Planetarium.py:313-318 | `star_list` is the transformed kept bright-star rows followed by every transformed line-star row, each group in catalog order, with length kept plus line rows; it fails exactly when one of those rows fails |
| Aggregate.SmallCatalogKept | Planetarium.py:313-316 | in a catalog where star 1 is in both lists, only star 2 is kept from the bright stars |
| Tube.Linspace | Planetarium.py:150-151 | `numpy.linspace` raises for a negative count and otherwise gives that many samples, starting at `start` and, with two or more, ending at `stop` |
| Tube.LinspaceEven | Planetarium.py:150-151 | consecutive samples are `(stop - start) / (num - 1)` apart, including the last, which is set to `stop` |
| Tube.LinspaceMonotone | Planetarium.py:150-151 | from a smaller start to a larger stop the samples never decrease |
| Tube.EndpointRadians | Planetarium.py:147-148 | `np.deg2rad` is applied only when `degree` is set, and keeps each angle's sign |
| Tube.Unit | Planetarium.py:156-157 | `(x_t, y_t, z_t)` at one sample; `CrossSectionCentre` shows the corners surround `100.5` times it |
| Tube.Offset | Planetarium.py:159-174 | the `+-size / 2` offsets of the four corners; `CrossSectionRectangle` shows they form a `sqrt(2) * size` by `size` rectangle in the plane of (1, 1, 0) and (0, 0, 1), and `CrossSectionCentre` that it is centred on the path point |
| Tube.Corner | Planetarium.py:159-174 | corner `k` of a sample; its partners `CrossSectionRectangle` (the corners form a rectangle), `CrossSectionCentre` (they average to `100.5 * u`) and `FaceIsParallelogram` (each face is a parallelogram) |
| Tube.FaceAt | Planetarium.py:180-184 | face `t` of step `i`; its partners `FaceIndicesValid` and `FacesDistinct` show it names four distinct existing vertices and no face repeats |
| Tube.VertexStrips | Planetarium.py:154-174 | strip `k` holds, for each sample in order, that sample's corner `k` |
| Tube.StripsConcat | Planetarium.py:176 | in the concatenated vertex list, corner `k` of sample `i` sits at index `k * div + i` |
| Tube.StepFaces | Planetarium.py:180-184 | the four faces written for one step join bottom, top, negative side and positive side strips from sample `i` to `i + 1` |
| Tube.TubeFaces | Planetarium.py:179-184 | the face loop gives four faces per step over `div - 1` steps, face `t` of step `i` at index `4i + t` |
| Tube.BuildTube | Planetarium.py:145-184 | the tube fails only for a negative `div`; it has `4 * div` vertices, each the corner of its strip around its sample, and `4 * (div - 1)` faces (none when `div` is 0) |
| Tube.SlotInjective | Planetarium.py:176 | different (strip, sample) pairs occupy different vertex indices |
| Tube.FaceIndicesValid | Planetarium.py:179-184 | every face index lies in `[0, 4 * div)` and the four indices of a face are pairwise distinct |
| Tube.FacesDistinct | Planetarium.py:179-184 | no face is emitted twice |
| Tube.FaceIsParallelogram | Planetarium.py:159-184 | each face is a parallelogram: opposite edges are the same vector, so every quad is planar |
| Tube.CrossSectionRectangle | Planetarium.py:159-174 | at every sample the corners form the same rectangle: its sides from corner 0 are `size * (1, 1, 0)` and `size * (0, 0, 1)`, perpendicular, of squared lengths `2 size^2` and `size^2`, and corner 3 is their sum |
| Tube.CrossSectionCentre | Planetarium.py:159-174 | the four corners of a sample average to the path point at radius 100.5 |

## Left out

- Everything that calls Blender (`bpy`): materials, text objects, camera,
  lights, mesh upload in `create_line_cube`, rendering. These are calls into
  a host program with no value to check.
- `Load_CSV` (network download and file read) and the CSV decoding itself:
  rows enter the model as lists of strings.
- The SQLite store: table creation, inserts, commits and queries.
- Timing and progress output.
- `Trans_NormalAngle180`, which is commented out.
- The label rotation (`math.atan`, `math.atan2`): it only orients text.
- Floating point: arithmetic is exact, so rounding in `linspace`, in the
  scaling of colours and in the coordinate formulas is not modelled.
- Sine and cosine: supplied as arbitrary functions; only the identity
  `cos^2 + sin^2 = 1` is assumed, and only in the lemmas that need it.
- `int()` and `float()`: non-ASCII digits, `_` separators, exponents,
  `inf` and `nan` are not accepted by the model; catalog fields use plain
  ASCII decimals. The same holds for non-ASCII digits in `int(chunk, 16)`,
  and `HexColor.ParseHex` also leaves out the `0x` prefix, which no chunk
  of two characters can carry before a digit.
- Text.ParseInt: integers are unbounded, so the model accepts digit runs
  longer than the 4300 digits CPython's `int()` refuses by default, and it
  does not raise the OverflowError that `int(item[1]) / 4` and
  `int(item[1]) / 60` (Planetarium.py:122, 126) raise once an integer
  exceeds the float range.
- Text.ParseDecimal: reals are unbounded, so a digit run beyond the float
  range gives a finite value where `float()` gives `inf` (and x, y, z
  become `nan`). With the two limits above, the "fails exactly when"
  clauses of Stars.TransHipBase, Stars.TransHipLine and Aggregate.StarList
  hold only for fields within the float range.
- Aggregate.StarList: when several rows are malformed the contract says the
  list fails but names the raised exception only for an empty line-star row;
  the method itself raises the same first exception as the loops.
- Aggregate.TransformKept: the contract says when the loop fails, not which
  exception it passes on.
- Aggregate.TransformAll: the contract says when the loop fails, not which
  exception it passes on.
- Stars.TransHipBase: the contract says when the transform fails, not
  whether IndexError or ValueError is raised.
- Stars.TransHipLine: the contract says when the transform fails, not
  whether IndexError or ValueError is raised.
- HexColor.HexToRgb: the contract says when the parse fails, not which chunk
  is named in the ValueError.

=== FILE: aggregate.dfy ===
/** The star list of the build step: the bright-star catalog rows whose
    catalog number is not also a constellation-line star, transformed with
    `trans_hip_base`, followed by every constellation-line star row
    transformed with `trans_hip_line`. Numbers are compared as the raw
    strings of field 0, before any `int()`. */
module Aggregate {
  import opened Results
  import opened Stars
  import opened Sphere

  /** Every row has a field 0, so `row[0]` does not raise. */
  predicate HasIds(rows: seq<Row>) {
    forall i :: 0 <= i < |rows| ==> rows[i] != []
  }

  /** `[i[0] for i in line_star_csv_data]` */
  function Ids(rows: seq<Row>): (ids: seq<string>)
    requires HasIds(rows)
    ensures |ids| == |rows|
    ensures forall i :: 0 <= i < |rows| ==> ids[i] == rows[i][0]
  {
    seq(|rows|, i requires 0 <= i < |rows| => rows[i][0])
  }

  /** The bright-star rows the loop keeps, in catalog order: those whose
      raw field 0 is not among `ids`. */
  function Kept(major: seq<Row>, ids: seq<string>): (kept: seq<Row>)
    requires HasIds(major)
    ensures |kept| <= |major| && HasIds(kept)
    ensures forall row :: row in kept ==> row in major && row[0] !in ids
    ensures forall i :: 0 <= i < |major| && major[i][0] !in ids ==> major[i] in kept
    decreases |major|
  {
    if major == [] then []
    else
      var prefix := major[..|major| - 1];
      var last := major[|major| - 1];
      assert forall i :: 0 <= i < |prefix| ==> prefix[i] == major[i];
      if last[0] in ids then Kept(prefix, ids) else Kept(prefix, ids) + [last]
  }

  /** Keeping rows commutes with splitting the catalog: the kept rows of a
      concatenation are the kept rows of each part, in the same order. */
  lemma {:induction false} KeptConcat(xs: seq<Row>, ys: seq<Row>, ids: seq<string>)
    requires HasIds(xs) && HasIds(ys)
    ensures HasIds(xs + ys)
    ensures Kept(xs + ys, ids) == Kept(xs, ids) + Kept(ys, ids)
    decreases |ys|
  {
    assert HasIds(xs + ys) by {
      forall i | 0 <= i < |xs + ys| ensures (xs + ys)[i] != [] {
        if i >= |xs| { assert (xs + ys)[i] == ys[i - |xs|]; }
      }
    }
    if ys == [] {
      assert xs + ys == xs;
    } else {
      var ys' := ys[..|ys| - 1];
      var last := ys[|ys| - 1];
      assert (xs + ys)[..|xs + ys| - 1] == xs + ys';
      assert (xs + ys)[|xs + ys| - 1] == last;
      assert HasIds(ys') by {
        forall i | 0 <= i < |ys'| ensures ys'[i] != [] { assert ys'[i] == ys[i]; }
      }
      KeptConcat(xs, ys', ids);
    }
  }

  /** With no line stars every bright star is kept; with every bright star
      also a line star none is. */
  lemma {:induction false} KeptExtremes(major: seq<Row>, ids: seq<string>)
    requires HasIds(major)
    ensures (forall i :: 0 <= i < |major| ==> major[i][0] !in ids) ==> Kept(major, ids) == major
    ensures (forall i :: 0 <= i < |major| ==> major[i][0] in ids) ==> Kept(major, ids) == []
    decreases |major|
  {
    if major != [] {
      var prefix := major[..|major| - 1];
      assert forall i :: 0 <= i < |prefix| ==> prefix[i] == major[i];
      KeptExtremes(prefix, ids);
      assert prefix + [major[|major| - 1]] == major;
    }
  }

  /** No kept bright-star row's raw field 0 equals a line-star row's field 0,
      so a star whose number both catalogs write identically enters the list
      only through the line stars. */
  lemma KeptAvoidsLineStars(major: seq<Row>, lines: seq<Row>)
    requires HasIds(major) && HasIds(lines)
    ensures forall k, i :: 0 <= k < |Kept(major, Ids(lines))| && 0 <= i < |lines| ==>
              Kept(major, Ids(lines))[k][0] != lines[i][0]
  {
    var ids := Ids(lines);
    var kept := Kept(major, ids);
    forall k, i | 0 <= k < |kept| && 0 <= i < |lines|
      ensures kept[k][0] != lines[i][0]
    {
      assert kept[k] in kept;
      assert ids[i] == lines[i][0];
    }
  }

  /** The comparison is on the raw text, not on the number: a bright-star
      row numbered "07" survives a line star numbered "7", although `int()`
      reads both as 7 (`Text.LeadingZeroSameNumber` with `w` = "7"), so star 7 would be
      listed twice. */
  lemma KeptComparesText()
    ensures Kept([["07"]], Ids([["7"]])) == [["07"]]
  {
    assert "07" != "7";
  }

  /** The line-star id list, or IndexError at the first empty row. */
  method LineIds(lines: seq<Row>) returns (r: Result<seq<string>>)
    ensures r.Ok? <==> HasIds(lines)
    ensures r.Ok? ==> r.value == Ids(lines)
    ensures r.Err? ==> r.error == IndexError
  {
    var ids: seq<string> := [];
    var i := 0;
    while i < |lines|
      invariant 0 <= i <= |lines|
      invariant |ids| == i
      invariant forall j :: 0 <= j < i ==> lines[j] != [] && ids[j] == lines[j][0]
    {
      if lines[i] == [] {
        return Err(IndexError);
      }
      ids := ids + [lines[i][0]];
      i := i + 1;
    }
    return Ok(ids);
  }

  /** The loop over the bright-star rows, for any per-row transform: an
      empty row raises IndexError when its field 0 is looked up, a row whose
      field 0 is a line-star id is skipped, and every other row is
      transformed, the first failure ending the loop. */
  method TransformKept<T>(transform: Row -> Result<T>, major: seq<Row>, ids: seq<string>)
    returns (r: Result<seq<T>>)
    ensures r.Ok? <==> HasIds(major) && forall row :: row in Kept(major, ids) ==> transform(row).Ok?
    ensures r.Ok? ==> |r.value| == |Kept(major, ids)|
    ensures r.Ok? ==> forall k :: 0 <= k < |r.value| ==> transform(Kept(major, ids)[k]) == Ok(r.value[k])
  {
    var out: seq<T> := [];
    var j := 0;
    while j < |major|
      invariant 0 <= j <= |major|
      invariant HasIds(major[..j])
      invariant forall row :: row in Kept(major[..j], ids) ==> transform(row).Ok?
      invariant |out| == |Kept(major[..j], ids)|
      invariant forall k :: 0 <= k < |out| ==> transform(Kept(major[..j], ids)[k]) == Ok(out[k])
    {
      var row := major[j];
      assert major[..j + 1][..j] == major[..j] && major[..j + 1][j] == row;
      if row == [] {
        return Err(IndexError);
      }
      assert HasIds(major[..j + 1]);
      ghost var before := Kept(major[..j], ids);
      if row[0] !in ids {
        var value := transform(row);
        if value.Err? {
          if HasIds(major) {
            assert row in Kept(major, ids);
          }
          return Err(value.error);
        }
        assert Kept(major[..j + 1], ids) == before + [row];
        out := out + [value.value];
        forall k | 0 <= k < |out|
          ensures transform((before + [row])[k]) == Ok(out[k])
        {
          if k < |before| {
            assert (before + [row])[k] == before[k];
          }
        }
      } else {
        assert Kept(major[..j + 1], ids) == before;
      }
      j := j + 1;
    }
    assert major[..j] == major;
    return Ok(out);
  }

  /** The loop over the constellation-line star rows, for any per-row
      transform: every row is transformed, the first failure ending the loop. */
  method TransformAll<T>(transform: Row -> Result<T>, rows: seq<Row>) returns (r: Result<seq<T>>)
    ensures r.Ok? <==> forall i :: 0 <= i < |rows| ==> transform(rows[i]).Ok?
    ensures r.Ok? ==> |r.value| == |rows|
    ensures r.Ok? ==> forall i :: 0 <= i < |rows| ==> transform(rows[i]) == Ok(r.value[i])
  {
    var out: seq<T> := [];
    var i := 0;
    while i < |rows|
      invariant 0 <= i <= |rows|
      invariant |out| == i
      invariant forall j :: 0 <= j < i ==> transform(rows[j]) == Ok(out[j])
    {
      var value := transform(rows[i]);
      if value.Err? {
        return Err(value.error);
      }
      out := out + [value.value];
      i := i + 1;
    }
    return Ok(out);
  }

  /** The whole `star_list`: kept bright stars first, then every line star,
      each group in catalog order; it fails when any row it reads fails. */
  method StarList(trig: Trig, major: seq<Row>, lines: seq<Row>) returns (r: Result<seq<Star>>)
    ensures !HasIds(lines) ==> r == Err(IndexError)
    ensures r.Ok? <==>
      && HasIds(lines) && HasIds(major)
      && (forall row :: row in Kept(major, Ids(lines)) ==> TransHipBase(trig, row).Ok?)
      && (forall i :: 0 <= i < |lines| ==> TransHipLine(trig, lines[i]).Ok?)
    ensures r.Ok? ==> |r.value| == |Kept(major, Ids(lines))| + |lines|
    ensures r.Ok? ==> forall k :: 0 <= k < |Kept(major, Ids(lines))| ==>
              TransHipBase(trig, Kept(major, Ids(lines))[k]) == Ok(r.value[k])
    ensures r.Ok? ==> forall i :: 0 <= i < |lines| ==>
              TransHipLine(trig, lines[i]) == Ok(r.value[|Kept(major, Ids(lines))| + i])
  {
    var ids :- LineIds(lines);
    var base :- TransformKept(row => TransHipBase(trig, row), major, ids);
    var line :- TransformAll(row => TransHipLine(trig, row), lines);
    return Ok(base + line);
  }

  const SmallMajor: seq<Row> := [["1", "0", "0", "0", "1", "0", "0", "0", "1"],
                                 ["2", "0", "0", "0", "1", "0", "0", "0", "5"]]
  const SmallLines: seq<Row> := [["1", "0", "0", "0", "0", "0", "0", "1", "", "", "", "", "", "G2V"]]

  /** A small catalog: star 1 is both a bright star and a line star of
      class G, star 2 only a bright star of magnitude 5. Star 1 is dropped
      from the bright-star rows, so only star 2 is kept from there and star 1
      appears once, from the line stars. */
  lemma SmallCatalogKept()
    ensures HasIds(SmallMajor) && HasIds(SmallLines)
    ensures Kept(SmallMajor, Ids(SmallLines)) == [SmallMajor[1]]
  {
    var ids := Ids(SmallLines);
    assert ids == ["1"];
    assert SmallMajor[..1][..0] == [];
    assert Kept(SmallMajor[..1], ids) == [];
  }
}

=== FILE: angles.dfy ===
/** Sexagesimal catalog coordinates to degrees (`trans_lon_coordinate`,
    `trans_lat_coordinate`), the `% 360` normalisation applied to them, and
    `math.radians`. */
module Angles {

  /** Python's `math.pi`: the double closest to pi, which is exactly
      884279719003555 / 2^48. */
  const Pi: real := 884279719003555.0 / 281474976710656.0

  /** `trans_lat_coordinate`: degrees, arc-minutes and arc-seconds to degrees. */
  function LatDegrees(d: int, m: int, s: real): (r: real)
    ensures 0 <= m < 60 && 0.0 <= s < 60.0 ==> d as real <= r < d as real + 1.0
  {
    d as real + m as real / 60.0 + s / 3600.0
  }

  /** `trans_lon_coordinate`: hours, minutes and seconds of right ascension
      to degrees; an hour is 15 degrees, so this is 15 times the same triple
      read as degrees. */
  function LonDegrees(h: int, m: int, s: real): (r: real)
    ensures r == 15.0 * LatDegrees(h, m, s)
  {
    h as real * 15.0 + m as real / 4.0 + s / 240.0
  }

  /** `x` and `y` differ by a whole number of turns. */
  predicate SameDirection(x: real, y: real) {
    var turns := (x - y) / 360.0;
    turns.Floor as real == turns
  }

  /** Python's `x % 360` on a float: the remainder takes the divisor's sign. */
  function Mod360(x: real): (r: real)
    ensures 0.0 <= r < 360.0
    ensures SameDirection(x, r)
  {
    var k := (x / 360.0).Floor;
    assert (x - (x - 360.0 * k as real)) / 360.0 == k as real;
    x - 360.0 * k as real
  }

  /** Adding whole turns does not change the normalised angle. */
  lemma Mod360Turns(x: real, k: int)
    ensures Mod360(x + 360.0 * k as real) == Mod360(x)
  {
    var f := (x / 360.0).Floor;
    assert (x + 360.0 * k as real) / 360.0 == x / 360.0 + k as real;
    assert ((x + 360.0 * k as real) / 360.0).Floor == f + k;
  }

  /** An angle already in `[0, 360)` is its own normal form, and only those are. */
  lemma Mod360Fixed(x: real)
    ensures Mod360(x) == x <==> 0.0 <= x < 360.0
  {
    if 0.0 <= x < 360.0 {
      assert (x / 360.0).Floor == 0;
    }
  }

  /** Normalising twice is normalising once. */
  lemma Mod360Idempotent(x: real)
    ensures Mod360(Mod360(x)) == Mod360(x)
  {
    Mod360Fixed(Mod360(x));
  }

  /** Two angles have the same normal form exactly when they differ by whole turns. */
  lemma Mod360SameDirection(x: real, y: real)
    ensures Mod360(x) == Mod360(y) <==> SameDirection(x, y)
  {
    if SameDirection(x, y) {
      var k := ((x - y) / 360.0).Floor;
      assert x == y + 360.0 * k as real;
      Mod360Turns(y, k);
    }
    if Mod360(x) == Mod360(y) {
      var kx := (x / 360.0).Floor;
      var ky := (y / 360.0).Floor;
      assert (x - y) / 360.0 == (kx - ky) as real;
    }
  }

  /** `math.degrees`: radians times 180/pi. */
  function Degrees(rad: real): real {
    rad * (180.0 / Pi)
  }

  /** `math.radians`: degrees times pi/180; `Degrees` takes it back. */
  function Radians(deg: real): (r: real)
    ensures Degrees(r) == deg
    ensures 0.0 <= deg < 360.0 ==> 0.0 <= r < 2.0 * Pi
    ensures deg < 0.0 <==> r < 0.0
  {
    deg * (Pi / 180.0)
  }

  /** The other direction: every angle in radians is the conversion of its degrees. */
  lemma RadiansOfDegrees(rad: real)
    ensures Radians(Degrees(rad)) == rad
  {
  }

  /** `math.radians(deg % 360)`: every catalog angle lands in `[0, 2 pi)`,
      and in degrees it is the one angle of `[0, 360)` in the direction of `deg`. */
  function NormalRadians(deg: real): (r: real)
    ensures 0.0 <= r < 2.0 * Pi
    ensures 0.0 <= Degrees(r) < 360.0 && SameDirection(deg, Degrees(r))
  {
    Radians(Mod360(deg))
  }

  /** The contract of `NormalRadians` leaves no choice: an angle of
      `[0, 2 pi)` whose degrees point the way `deg` does is `NormalRadians(deg)`. */
  lemma NormalRadiansUnique(deg: real, r: real)
    requires 0.0 <= Degrees(r) < 360.0 && SameDirection(deg, Degrees(r))
    ensures r == NormalRadians(deg)
  {
    Mod360Fixed(Degrees(r));
    Mod360SameDirection(deg, Degrees(r));
    RadiansOfDegrees(r);
  }

  /** Right ascension grows with each of its components. */
  lemma LonMonotone(h: int, m: int, s: real, h': int, m': int, s': real)
    requires h <= h' && m <= m' && s <= s'
    ensures LonDegrees(h, m, s) <= LonDegrees(h', m', s')
  {
  }

  /** Declination grows with each of its components. */
  lemma LatMonotone(d: int, m: int, s: real, d': int, m': int, s': real)
    requires d <= d' && m <= m' && s <= s'
    ensures LatDegrees(d, m, s) <= LatDegrees(d', m', s')
  {
  }
}

=== FILE: hexcolor.dfy ===
/** `Color.hex_to_rgb`: a hex colour string such as "#000119" becomes a
    tuple of colour components scaled to `[0, max]`, with an alpha component
    appended when the transparency argument lies in `[0, 1]`. */
module HexColor {
  import opened Results
  import opened Text

  predicate IsHexDigit(c: char) {
    ('0' <= c <= '9') || ('a' <= c <= 'f') || ('A' <= c <= 'F')
  }

  function HexDigitValue(c: char): (v: nat)
    requires IsHexDigit(c)
    ensures v < 16
  {
    if '0' <= c <= '9' then (c as int) - ('0' as int)
    else if 'a' <= c <= 'f' then (c as int) - ('a' as int) + 10
    else (c as int) - ('A' as int) + 10
  }

  predicate IsHash(c: char) {
    c == '#'
  }

  /** `hex.strip().strip("#")`: whitespace off both ends, then '#' off both ends. */
  function Stripped(hex: string): (r: string)
    ensures |r| <= |hex|
    ensures r != [] ==> !IsHash(r[0]) && !IsHash(r[|r| - 1])
  {
    Strip(Strip(hex, IsSpace), IsHash)
  }

  /** `[hex[i:i + 2] for i in range(0, len(hex), 2)]`: two-character chunks,
      the last one a single character when the length is odd. */
  function Chunks(s: string): (r: seq<string>)
    ensures |r| == (|s| + 1) / 2
    ensures forall i :: 0 <= i < |r| ==> 1 <= |r[i]| <= 2
    decreases |s|
  {
    if s == [] then []
    else if |s| <= 2 then [s]
    else [s[..2]] + Chunks(s[2..])
  }

  /** Chunk `i` is the slice `s[2i : 2i + 2]`, cut short at the end of `s`. */
  lemma {:induction false} ChunkAt(s: string, i: int)
    requires 0 <= i < |Chunks(s)|
    ensures Chunks(s)[i] == s[2 * i .. if 2 * i + 2 <= |s| then 2 * i + 2 else |s|]
    decreases |s|
  {
    if 2 < |s| && 0 < i {
      ChunkAt(s[2..], i - 1);
      assert s[2..][2 * (i - 1)..] == s[2 * i..];
    }
  }

  /** Python `int(chunk, 16)` for a chunk of one or two characters: two hex
      digits, one hex digit, or one hex digit beside a sign or the whitespace
      `int()` skips. `ParseHexChunkAgrees` relates it to `ParseHex`. */
  function ParseHexChunk(chunk: string): (r: Result<int>)
    requires 1 <= |chunk| <= 2
    ensures r.Ok? ==> -15 <= r.value <= 255
    ensures r.Ok? && r.value < 0 ==> chunk[0] == '-'
    ensures |chunk| == 2 && IsHexDigit(chunk[0]) && IsHexDigit(chunk[1]) ==> r.Ok? && 0 <= r.value <= 255
  {
    if |chunk| == 1 then
      if IsHexDigit(chunk[0]) then Ok(HexDigitValue(chunk[0])) else Err(ValueError(chunk))
    else if IsHexDigit(chunk[0]) && IsHexDigit(chunk[1]) then
      Ok(16 * HexDigitValue(chunk[0]) + HexDigitValue(chunk[1]))
    else if chunk[0] == '-' && IsHexDigit(chunk[1]) then
      Ok(0 - HexDigitValue(chunk[1]))
    else if (chunk[0] == '+' || IsNumberSpace(chunk[0])) && IsHexDigit(chunk[1]) then
      Ok(HexDigitValue(chunk[1]))
    else if IsHexDigit(chunk[0]) && IsNumberSpace(chunk[1]) then
      Ok(HexDigitValue(chunk[0]))
    else
      Err(ValueError(chunk))
  }

  /** One colour component: the parsed chunk times `max / 255`. */
  function Component(v: int, scale: real): real {
    v as real * scale
  }

  /** The list comprehension: each chunk parsed and multiplied by `scale`;
      the first chunk that `int()` rejects raises. */
  function Components(chunks: seq<string>, scale: real): (r: Result<seq<real>>)
    requires forall i :: 0 <= i < |chunks| ==> 1 <= |chunks[i]| <= 2
    ensures r.Ok? <==> forall i :: 0 <= i < |chunks| ==> ParseHexChunk(chunks[i]).Ok?
    ensures r.Ok? ==> |r.value| == |chunks|
    ensures r.Ok? ==> forall i :: 0 <= i < |chunks| ==>
              r.value[i] == Component(ParseHexChunk(chunks[i]).value, scale)
    decreases |chunks|
  {
    if chunks == [] then Ok([])
    else
      var v :- ParseHexChunk(chunks[0]);
      var rest :- Components(chunks[1..], scale);
      assert forall i :: 1 <= i < |chunks| ==> chunks[1..][i - 1] == chunks[i];
      Ok([Component(v, scale)] + rest)
  }

  /** The chunks `hex_to_rgb` parses, one per component. */
  function HexChunks(hex: string): (r: seq<string>)
    ensures |r| == (|Stripped(hex)| + 1) / 2
    ensures forall i :: 0 <= i < |r| ==> 1 <= |r[i]| <= 2
  {
    Chunks(Stripped(hex))
  }

  predicate HasAlpha(trans: real) {
    0.0 <= trans <= 1.0
  }

  /** The tuple `hex_to_rgb` builds from its chunks: one scaled component
      per chunk, then the alpha component when there is one. */
  function RgbOfChunks(chunks: seq<string>, max: real, trans: real): (r: Result<seq<real>>)
    requires forall i :: 0 <= i < |chunks| ==> 1 <= |chunks[i]| <= 2
    ensures r.Ok? <==> forall i :: 0 <= i < |chunks| ==> ParseHexChunk(chunks[i]).Ok?
    ensures r.Ok? ==> |r.value| == |chunks| + (if HasAlpha(trans) then 1 else 0)
    ensures r.Ok? ==> forall i :: 0 <= i < |chunks| ==>
              r.value[i] == Component(ParseHexChunk(chunks[i]).value, max / 255.0)
    ensures r.Ok? && HasAlpha(trans) ==> r.value[|r.value| - 1] == trans
  {
    var color :- Components(chunks, max / 255.0);
    var withAlpha := if HasAlpha(trans) then color + [trans] else color;
    assert forall i :: 0 <= i < |color| ==> withAlpha[i] == color[i];
    Ok(withAlpha)
  }

  /** `Color.hex_to_rgb(hex, max, Trans)`. */
  function HexToRgb(hex: string, max: real, trans: real): (r: Result<seq<real>>)
    ensures var chunks := HexChunks(hex);
            && (r.Ok? <==> forall i :: 0 <= i < |chunks| ==> ParseHexChunk(chunks[i]).Ok?)
            && (r.Ok? ==> |r.value| == |chunks| + (if HasAlpha(trans) then 1 else 0))
            && (r.Ok? ==> forall i :: 0 <= i < |chunks| ==>
                  r.value[i] == Component(ParseHexChunk(chunks[i]).value, max / 255.0))
            && (r.Ok? && HasAlpha(trans) ==> r.value[|r.value| - 1] == trans)
  {
    RgbOfChunks(HexChunks(hex), max, trans)
  }

  predicate AllHexDigits(s: string) {
    forall i :: 0 <= i < |s| ==> IsHexDigit(s[i])
  }

  /** The number a run of hex digits denotes, most significant first. */
  function HexDigitsValue(s: string): nat
    requires AllHexDigits(s)
    decreases |s|
  {
    if s == [] then 0 else 16 * HexDigitsValue(s[..|s| - 1]) + HexDigitValue(s[|s| - 1])
  }

  lemma HexDigitsValueSingle(c: char)
    requires IsHexDigit(c)
    ensures HexDigitsValue([c]) == HexDigitValue(c)
  {
    assert [c][..0] == [];
  }

  /** Python `int(text, 16)` on text of any length, leaving out the optional
      `0x` prefix and `_` separators: the whitespace `int()` skips, an
      optional sign, then one or more hex digits. */
  function ParseHex(text: string): (r: Result<int>)
    ensures r.Err? ==> r.error == ValueError(text)
    ensures r.Ok? ==> var t := Strip(text, IsNumberSpace); t != [] && IsHexDigit(t[|t| - 1])
  {
    var (negative, body) := SplitSign(Strip(text, IsNumberSpace));
    if body != [] && AllHexDigits(body) then
      var magnitude: int := HexDigitsValue(body);
      Ok(if negative then -magnitude else magnitude)
    else
      Err(ValueError(text))
  }

  /** On every chunk `hex_to_rgb` can cut, the chunk parser is `int(chunk, 16)`:
      the same value, and the same failures. A two-character chunk cannot
      hold a `0x` prefix followed by a digit, so leaving the prefix out of
      `ParseHex` loses nothing here. */
  lemma ParseHexChunkAgrees(chunk: string)
    requires 1 <= |chunk| <= 2
    ensures ParseHexChunk(chunk) == ParseHex(chunk)
  {
    if |chunk| == 1 {
      SingleAgrees(chunk[0]);
      assert chunk == [chunk[0]];
    } else {
      var a, b := chunk[0], chunk[1];
      assert chunk == [a, b];
      if IsNumberSpace(a) && IsNumberSpace(b) {
        BlankPairAgrees(a, b);
      } else if IsNumberSpace(a) {
        LeadingSpaceAgrees(a, b);
      } else if IsNumberSpace(b) {
        TrailingSpaceAgrees(a, b);
      } else {
        UnpaddedPairAgrees(a, b);
      }
    }
  }

  lemma SingleAgrees(a: char)
    ensures ParseHexChunk([a]) == ParseHex([a])
  {
    if IsNumberSpace(a) {
      StripPadded([a], [], [], IsNumberSpace);
      assert [a] + [] + [] == [a];
    } else {
      StripUnpadded([a], IsNumberSpace);
      if IsHexDigit(a) { HexDigitsValueSingle(a); }
    }
  }

  lemma BlankPairAgrees(a: char, b: char)
    requires IsNumberSpace(a) && IsNumberSpace(b)
    ensures ParseHexChunk([a, b]) == ParseHex([a, b])
  {
    StripPadded([a, b], [], [], IsNumberSpace);
    assert [a, b] + [] + [] == [a, b];
  }

  lemma LeadingSpaceAgrees(a: char, b: char)
    requires IsNumberSpace(a) && !IsNumberSpace(b)
    ensures ParseHexChunk([a, b]) == ParseHex([a, b])
  {
    StripPadded([a], [b], [], IsNumberSpace);
    assert [a] + [b] + [] == [a, b];
    if IsHexDigit(b) { HexDigitsValueSingle(b); }
  }

  lemma TrailingSpaceAgrees(a: char, b: char)
    requires !IsNumberSpace(a) && IsNumberSpace(b)
    ensures ParseHexChunk([a, b]) == ParseHex([a, b])
  {
    StripPadded([], [a], [b], IsNumberSpace);
    assert [] + [a] + [b] == [a, b];
    if IsHexDigit(a) { HexDigitsValueSingle(a); }
  }

  lemma UnpaddedPairAgrees(a: char, b: char)
    requires !IsNumberSpace(a) && !IsNumberSpace(b)
    ensures ParseHexChunk([a, b]) == ParseHex([a, b])
  {
    StripUnpadded([a, b], IsNumberSpace);
    assert [a, b][1..] == [b];
    if IsHexDigit(b) { HexDigitsValueSingle(b); }
    if IsHexDigit(a) && IsHexDigit(b) {
      assert [a, b][..1] == [a];
      HexDigitsValueSingle(a);
    }
  }

  /** A chunk of an even-length run of hex digits is two hex digits. */
  lemma ChunkOfHexPairs(s: string, i: int)
    requires AllHexDigits(s) && |s| % 2 == 0
    requires 0 <= i < |s| / 2
    ensures |Chunks(s)[i]| == 2 && IsHexDigit(Chunks(s)[i][0]) && IsHexDigit(Chunks(s)[i][1])
  {
    var c := Chunks(s)[i];
    ChunkAt(s, i);
    assert c == s[2 * i .. 2 * i + 2];
    assert c[0] == s[2 * i] && c[1] == s[2 * i + 1];
  }

  lemma ComponentBound(v: int, max: real)
    requires 0 <= v <= 255 && max >= 0.0
    ensures 0.0 <= Component(v, max / 255.0) <= max
  {
    assert Component(v, max / 255.0) == max * (v as real / 255.0);
  }

  /** A colour written as whole two-digit chunks yields components in
      `[0, max]`, one per byte. */
  lemma ComponentsInRange(hex: string, max: real, trans: real)
    requires max >= 0.0
    requires AllHexDigits(Stripped(hex)) && |Stripped(hex)| % 2 == 0
    ensures HexToRgb(hex, max, trans).Ok?
    ensures forall i :: 0 <= i < |HexChunks(hex)| ==> 0.0 <= HexToRgb(hex, max, trans).value[i] <= max
  {
    var chunks := HexChunks(hex);
    forall i | 0 <= i < |chunks|
      ensures ParseHexChunk(chunks[i]).Ok? && 0 <= ParseHexChunk(chunks[i]).value <= 255
    {
      ChunkOfHexPairs(Stripped(hex), i);
    }
    forall i | 0 <= i < |chunks|
      ensures 0.0 <= Component(ParseHexChunk(chunks[i]).value, max / 255.0) <= max
    {
      ComponentBound(ParseHexChunk(chunks[i]).value, max);
    }
  }

  function HexChar(v: nat): (c: char)
    requires v < 16
    ensures IsHexDigit(c) && HexDigitValue(c) == v
  {
    if v < 10 then ('0' as int + v) as char else ('a' as int + v - 10) as char
  }

  predicate IsByte(b: int) {
    0 <= b < 256
  }

  /** The inverse direction: each byte as two lower-case hex digits. */
  function Encode(bytes: seq<int>): (s: string)
    requires forall i :: 0 <= i < |bytes| ==> IsByte(bytes[i])
    ensures |s| == 2 * |bytes| && AllHexDigits(s)
  {
    seq(2 * |bytes|, k requires 0 <= k < 2 * |bytes| =>
      var b := bytes[k / 2];
      assert IsByte(b);
      if k % 2 == 0 then HexChar(b / 16) else HexChar(b % 16))
  }

  /** The two digits written for byte `i`. */
  lemma EncodeAt(bytes: seq<int>, i: int)
    requires forall j :: 0 <= j < |bytes| ==> IsByte(bytes[j])
    requires 0 <= i < |bytes|
    ensures Encode(bytes)[2 * i] == HexChar(bytes[i] / 16)
    ensures Encode(bytes)[2 * i + 1] == HexChar(bytes[i] % 16)
  {
    assert (2 * i) / 2 == i && (2 * i + 1) / 2 == i && (2 * i) % 2 == 0 && (2 * i + 1) % 2 == 1;
  }

  /** Two hex digits written for a byte parse back to it. */
  lemma ParseHexByte(b: int)
    requires IsByte(b)
    ensures ParseHexChunk([HexChar(b / 16), HexChar(b % 16)]) == Ok(b)
  {
  }

  /** Every chunk of an encoding parses back to its byte. */
  lemma ChunksOfEncode(bytes: seq<int>, i: int)
    requires forall j :: 0 <= j < |bytes| ==> IsByte(bytes[j])
    requires 0 <= i < |bytes|
    ensures ParseHexChunk(Chunks(Encode(bytes))[i]) == Ok(bytes[i])
  {
    var e := Encode(bytes);
    var c := Chunks(e)[i];
    ChunkAt(e, i);
    assert c == e[2 * i .. 2 * i + 2];
    EncodeAt(bytes, i);
    assert c == [HexChar(bytes[i] / 16), HexChar(bytes[i] % 16)];
    ParseHexByte(bytes[i]);
  }

  lemma HashHexUnpadded(e: string)
    requires AllHexDigits(e)
    ensures Strip("#" + e, IsSpace) == "#" + e
  {
    var t := "#" + e;
    assert t[0] == '#';
    assert IsHexDigit(t[|t| - 1]) || t[|t| - 1] == '#';
    StripUnpadded(t, IsSpace);
  }

  lemma HashStripped(e: string)
    requires AllHexDigits(e)
    ensures Strip("#" + e, IsHash) == e
  {
    assert AllCut("#", IsHash);
    assert e != [] ==> IsHexDigit(e[0]) && IsHexDigit(e[|e| - 1]);
    assert "#" + e + [] == "#" + e;
    StripPadded("#", e, [], IsHash);
  }

  /** A '#' in front of plain hex digits is all that `hex_to_rgb` strips. */
  lemma StrippedHashHex(e: string)
    requires AllHexDigits(e)
    ensures Stripped("#" + e) == e
  {
    HashHexUnpadded(e);
    HashStripped(e);
  }

  /** Chunks that parse to given bytes read, at `max = 255` and without
      alpha, as exactly those byte values. */
  lemma RgbOfByteChunks(chunks: seq<string>, bytes: seq<int>)
    requires forall i :: 0 <= i < |chunks| ==> 1 <= |chunks[i]| <= 2
    requires |chunks| == |bytes|
    requires forall i :: 0 <= i < |bytes| ==> ParseHexChunk(chunks[i]) == Ok(bytes[i])
    ensures RgbOfChunks(chunks, 255.0, -1.0) == Ok(seq(|bytes|, i requires 0 <= i < |bytes| => bytes[i] as real))
  {
    var r := RgbOfChunks(chunks, 255.0, -1.0);
    var expected := seq(|bytes|, i requires 0 <= i < |bytes| => bytes[i] as real);
    assert r.Ok?;
    assert !HasAlpha(-1.0);
    assert |r.value| == |expected|;
    forall i | 0 <= i < |bytes|
      ensures r.value[i] == expected[i]
    {
      assert r.value[i] == Component(bytes[i], 255.0 / 255.0);
    }
    assert r.value == expected;
  }

  /** Round trip: a colour encoded as "#rrggbb..." and read back with
      `max = 255` and no alpha gives the original byte values. */
  lemma HexToRgbEncode(bytes: seq<int>)
    requires forall i :: 0 <= i < |bytes| ==> IsByte(bytes[i])
    ensures HexToRgb("#" + Encode(bytes), 255.0, -1.0) == Ok(seq(|bytes|, i requires 0 <= i < |bytes| => bytes[i] as real))
  {
    var hex := "#" + Encode(bytes);
    StrippedHashHex(Encode(bytes));
    forall i | 0 <= i < |bytes|
      ensures ParseHexChunk(HexChunks(hex)[i]) == Ok(bytes[i])
    {
      ChunksOfEncode(bytes, i);
    }
    RgbOfByteChunks(HexChunks(hex), bytes);
  }
}

=== FILE: results.dfy ===
/** The failure-compatible result type used by every parsing and transform
    step of the planetarium pipeline. A Python exception raised by the
    catalog code becomes an `Err` carrying which exception it was. */
module Results {

  /** The two exceptions the modelled code raises on malformed catalog rows. */
  datatype Error =
    | IndexError              // a field, or a character of a field, that is not there
    | ValueError(text: string) // a string that int() or float() rejects

  datatype Result<+T> = Ok(value: T) | Err(error: Error) {

    predicate IsFailure() {
      Err?
    }

    function PropagateFailure<U>(): Result<U>
      requires Err?
    {
      Err(error)
    }

    function Extract(): T
      requires Ok?
    {
      value
    }
  }
}

=== FILE: sphere.dfy ===
/** `Calculate_xyz` and its inlined copies: a direction given as right
    ascension and declination, at a distance, becomes a Cartesian point.
    Sine and cosine are not computed here: they arrive as a `Trig` record of
    two opaque functions, and the lemmas assume only `cos^2 + sin^2 = 1` at
    the angles they use. */
module Sphere {

  datatype Vec3 = Vec3(x: real, y: real, z: real)

  /** Squared distance from the origin. */
  function Norm2(v: Vec3): real {
    v.x * v.x + v.y * v.y + v.z * v.z
  }

  function Add(a: Vec3, b: Vec3): Vec3 {
    Vec3(a.x + b.x, a.y + b.y, a.z + b.z)
  }

  function Sub(a: Vec3, b: Vec3): Vec3 {
    Vec3(a.x - b.x, a.y - b.y, a.z - b.z)
  }

  function Scale(k: real, v: Vec3): Vec3 {
    Vec3(k * v.x, k * v.y, k * v.z)
  }

  function Dot(a: Vec3, b: Vec3): real {
    a.x * b.x + a.y * b.y + a.z * b.z
  }

  /** Python's `math.cos` and `math.sin`, supplied by the caller. */
  datatype Trig = Trig(cos: real -> real, sin: real -> real)

  /** The one trigonometric fact the lemmas rely on, at one angle. */
  predicate OnUnitCircle(trig: Trig, a: real) {
    trig.cos(a) * trig.cos(a) + trig.sin(a) * trig.sin(a) == 1.0
  }

  /** The spherical-to-Cartesian formula on given cosines and sines. */
  function Cartesian(cosRa: real, sinRa: real, cosDec: real, sinDec: real, distance: real): Vec3 {
    Vec3(distance * cosRa * cosDec, distance * sinRa * cosDec, distance * sinDec)
  }

  /** `Calculate_xyz(ra, dec, distance)`. */
  function CalculateXyz(trig: Trig, ra: real, dec: real, distance: real): Vec3 {
    Cartesian(trig.cos(ra), trig.sin(ra), trig.cos(dec), trig.sin(dec), distance)
  }

  lemma SquareOfProduct(a: real, b: real, c: real)
    ensures (a * b * c) * (a * b * c) == (a * a) * ((b * b) * (c * c))
  {
  }

  lemma FactorOut(k: real, p: real, q: real)
    ensures k * p + k * q == k * (p + q)
  {
  }

  /** The point lies on the sphere of the given radius. */
  lemma CartesianOnSphere(cosRa: real, sinRa: real, cosDec: real, sinDec: real, distance: real)
    requires cosRa * cosRa + sinRa * sinRa == 1.0
    requires cosDec * cosDec + sinDec * sinDec == 1.0
    ensures Norm2(Cartesian(cosRa, sinRa, cosDec, sinDec, distance)) == distance * distance
  {
    var d2 := distance * distance;
    var c2 := cosDec * cosDec;
    SquareOfProduct(distance, cosRa, cosDec);
    SquareOfProduct(distance, sinRa, cosDec);
    FactorOut(c2, cosRa * cosRa, sinRa * sinRa);
    assert (cosRa * cosRa) * c2 + (sinRa * sinRa) * c2 == c2;
    FactorOut(d2, (cosRa * cosRa) * c2, (sinRa * sinRa) * c2);
    SquareOfProduct(distance, sinDec, 1.0);
    FactorOut(d2, c2, sinDec * sinDec);
  }

  /** `Calculate_xyz` places a point at exactly `distance` from the origin
      whenever sine and cosine agree at both angles. */
  lemma CalculateXyzOnSphere(trig: Trig, ra: real, dec: real, distance: real)
    requires OnUnitCircle(trig, ra) && OnUnitCircle(trig, dec)
    ensures Norm2(CalculateXyz(trig, ra, dec, distance)) == distance * distance
  {
    CartesianOnSphere(trig.cos(ra), trig.sin(ra), trig.cos(dec), trig.sin(dec), distance);
  }
}

=== FILE: stars.dfy ===
/** The per-row star transforms: `trans_hip_base` for the bright-star
    catalog, `trans_hip_line` for the constellation-line stars, the
    brightness-to-size rule, the spectral-class colour index, and the
    placement of constellation labels. A catalog row is the list of string
    fields `csv.reader` yields. */
module Stars {
  import opened Results
  import opened Text
  import opened Angles
  import opened Sphere

  type Row = seq<string>

  /** One `star_base` record: catalog number, position on the sphere,
      right ascension and declination in radians, display size, colour index. */
  datatype Star = Star(hip: int, x: real, y: real, z: real, ra: real, dec: real, size: real, color: int)

  function Position(s: Star): Vec3 {
    Vec3(s.x, s.y, s.z)
  }

  /** Radius of the sphere the stars sit on, and of the one the labels sit on. */
  const StarRadius: real := 100.0
  const LabelRadius: real := 99.0

  /** `row[i]`, or IndexError past the end. */
  function Field(row: Row, i: nat): (r: Result<string>)
    ensures r.Ok? <==> i < |row|
    ensures r.Ok? ==> r.value == row[i]
  {
    if i < |row| then Ok(row[i]) else Err(IndexError)
  }

  /** `int(row[i])` */
  function IntField(row: Row, i: nat): (r: Result<int>)
    ensures r.Ok? ==> i < |row|
  {
    var f :- Field(row, i);
    ParseInt(f)
  }

  /** `float(row[i])` */
  function RealField(row: Row, i: nat): (r: Result<real>)
    ensures r.Ok? ==> i < |row|
  {
    var f :- Field(row, i);
    ParseDecimal(f)
  }

  /** `max(0.3 - mag / 20, 0)`: the sphere scale of a star of magnitude `mag`. */
  function Brightness(mag: real): (size: real)
    ensures size >= 0.0
    ensures size == 0.0 <==> mag >= 6.0
    ensures mag < 6.0 ==> size == 0.3 - mag / 20.0
  {
    var v := 0.3 - mag / 20.0;
    if 0.0 > v then 0.0 else v
  }

  /** Fainter stars are never drawn larger, and strictly smaller until they vanish. */
  lemma BrightnessMonotone(m1: real, m2: real)
    requires m1 <= m2
    ensures Brightness(m1) >= Brightness(m2)
    ensures m1 < m2 && m1 < 6.0 ==> Brightness(m1) > Brightness(m2)
  {
  }

  /** `color_ref`: spectral class letter to colour index. */
  const ColorRef: map<string, int> :=
    map["" := 0, "O" := 1, "B" := 2, "A" := 3, "F" := 4, "G" := 5, "K" := 6, "M" := 7]

  /** The classes with their own colour, in index order starting at 1. */
  const SpectralClasses: string := "OBAFGKM"

  /** `colors`: the RGBA emission colour of each index; `color_materials`
      holds one material per entry, in the same order. */
  const Palette: seq<(real, real, real, real)> := [
    (0.5, 0.5, 0.5, 1.0), (0.3, 0.3, 0.8, 1.0), (0.3, 0.3, 0.8, 1.0), (0.5, 0.5, 1.0, 1.0),
    (1.0, 1.0, 1.0, 1.0), (0.8, 0.8, 0.4, 1.0), (0.8, 0.4, 0.0, 1.0), (0.4, 0.0, 0.0, 1.0)
  ]

  /** `color_ref.get(spectral[0], 0)`: the first character of the spectral
      type picks the colour; an empty field raises IndexError, so the ""
      key of `color_ref` is never looked up this way. */
  function SpectralColor(spectral: string): (r: Result<int>)
    ensures r.Ok? <==> spectral != []
    ensures r.Ok? ==> 0 <= r.value < |Palette|
    ensures r.Ok? ==> (r.value == 0 <==> spectral[0] !in SpectralClasses)
    ensures r.Ok? && r.value > 0 ==> SpectralClasses[r.value - 1] == spectral[0]
  {
    if spectral == [] then Err(IndexError)
    else
      var key := [spectral[0]];
      Ok(if key in ColorRef then ColorRef[key] else 0)
  }

  /** Each class letter selects its own index, whatever follows it. */
  lemma SpectralColorOfClass(i: int, rest: string)
    requires 0 <= i < |SpectralClasses|
    ensures SpectralColor([SpectralClasses[i]] + rest) == Ok(i + 1)
  {
    var s := [SpectralClasses[i]] + rest;
    assert s[0] == SpectralClasses[i];
    var r := SpectralColor(s);
    assert r.Ok? && r.value != 0;
    assert SpectralClasses[r.value - 1] == SpectralClasses[i];
  }

  /** The numbers of a bright-star row (hip, RA h, m, s, declination sign
      flag, dec d, m, s, magnitude); a flag of exactly "0" means south. */
  datatype BaseFields = BaseFields(hip: int, raH: int, raM: int, raS: real,
                                   south: bool, decD: int, decM: int, decS: real, mag: real)

  /** The field reads of `trans_hip_base`, in Python's evaluation order: the
      RA triple, the declination triple, the flag, the magnitude, the number. */
  function ParseBaseRow(row: Row): (r: Result<BaseFields>)
    ensures r.Ok? <==>
      && |row| >= 9
      && ParseInt(row[1]).Ok? && ParseInt(row[2]).Ok? && ParseDecimal(row[3]).Ok?
      && ParseInt(row[5]).Ok? && ParseInt(row[6]).Ok? && ParseDecimal(row[7]).Ok?
      && ParseDecimal(row[8]).Ok? && ParseInt(row[0]).Ok?
    ensures r.Ok? ==> r.value.hip == ParseInt(row[0]).value && r.value.mag == ParseDecimal(row[8]).value
    ensures r.Ok? ==> (r.value.south <==> row[4] == "0")
    ensures r.Ok? ==> && r.value.raH == ParseInt(row[1]).value && r.value.raM == ParseInt(row[2]).value
                      && r.value.raS == ParseDecimal(row[3]).value
    ensures r.Ok? ==> && r.value.decD == ParseInt(row[5]).value && r.value.decM == ParseInt(row[6]).value
                      && r.value.decS == ParseDecimal(row[7]).value
  {
    var h :- IntField(row, 1);
    var m :- IntField(row, 2);
    var s :- RealField(row, 3);
    var d :- IntField(row, 5);
    var dm :- IntField(row, 6);
    var ds :- RealField(row, 7);
    var flag := row[4];  // present: field 7 has just been read
    var mag :- RealField(row, 8);
    var hip :- IntField(row, 0);
    Ok(BaseFields(hip, h, m, s, flag == "0", d, dm, ds, mag))
  }

  /** The arithmetic of `trans_hip_base` once the fields are read: both
      angles normalised into `[0, 2 pi)`, then the declination negated for a
      southern star; colour index 0. The right ascension is the RA triple's
      direction, the declination (sign undone for the south) the declination
      triple's, and the position is the point at those angles at distance 100. */
  function BaseStar(trig: Trig, f: BaseFields): (star: Star)
    ensures star.hip == f.hip && star.color == 0 && star.size == Brightness(f.mag)
    ensures 0.0 <= star.ra < 2.0 * Pi
    ensures f.south ==> -2.0 * Pi < star.dec <= 0.0
    ensures !f.south ==> 0.0 <= star.dec < 2.0 * Pi
    ensures SameDirection(LonDegrees(f.raH, f.raM, f.raS), Degrees(star.ra))
    ensures f.south ==> SameDirection(LatDegrees(f.decD, f.decM, f.decS), Degrees(-star.dec))
    ensures !f.south ==> SameDirection(LatDegrees(f.decD, f.decM, f.decS), Degrees(star.dec))
    ensures Position(star) == CalculateXyz(trig, star.ra, star.dec, StarRadius)
  {
    var ra := NormalRadians(LonDegrees(f.raH, f.raM, f.raS));
    var north := NormalRadians(LatDegrees(f.decD, f.decM, f.decS));
    var dec := if f.south then -north else north;
    var p := CalculateXyz(trig, ra, dec, StarRadius);
    Star(f.hip, p.x, p.y, p.z, ra, dec, Brightness(f.mag), 0)
  }

  /** `trans_hip_base`: a bright-star row to a star record of colour 0;
      it fails exactly when a field is missing or not a number. */
  function TransHipBase(trig: Trig, row: Row): (r: Result<Star>)
    ensures r.Ok? <==> ParseBaseRow(row).Ok?
    ensures r.Ok? ==> r.value.hip == ParseInt(row[0]).value
    ensures r.Ok? ==> 0.0 <= r.value.ra < 2.0 * Pi
    ensures r.Ok? && row[4] == "0" ==> -2.0 * Pi < r.value.dec <= 0.0
    ensures r.Ok? && row[4] != "0" ==> 0.0 <= r.value.dec < 2.0 * Pi
    ensures r.Ok? ==> r.value.size == Brightness(ParseDecimal(row[8]).value)
    ensures r.Ok? ==> r.value.color == 0
  {
    var fields :- ParseBaseRow(row);
    Ok(BaseStar(trig, fields))
  }

  /** `trans_hip_base` on a row: the right ascension is fields 1-3 read as
      hours, minutes and seconds, and the declination fields 5-7 read as
      degrees, arc-minutes and arc-seconds, negated when field 4 is "0"; each
      angle is brought into `[0, 2 pi)` by `NormalRadians`, whose contract
      and `NormalRadiansUnique` fix that value as the one in the same direction. */
  lemma TransHipBaseAngles(trig: Trig, row: Row)
    ensures TransHipBase(trig, row).Ok? ==>
            var star := TransHipBase(trig, row).value;
            var north := NormalRadians(LatDegrees(ParseInt(row[5]).value, ParseInt(row[6]).value, ParseDecimal(row[7]).value));
            && star.ra == NormalRadians(LonDegrees(ParseInt(row[1]).value, ParseInt(row[2]).value, ParseDecimal(row[3]).value))
            && star.dec == if row[4] == "0" then -north else north
  {
    if TransHipBase(trig, row).Ok? {
      assert TransHipBase(trig, row).value == BaseStar(trig, ParseBaseRow(row).value);
    }
  }

  /** x, y, z of a `trans_hip_base` star are the point at its own right
      ascension and declination at distance 100. */
  lemma TransHipBasePosition(trig: Trig, row: Row)
    ensures TransHipBase(trig, row).Ok? ==>
            var star := TransHipBase(trig, row).value;
            Position(star) == CalculateXyz(trig, star.ra, star.dec, StarRadius)
  {
    if TransHipBase(trig, row).Ok? {
      assert TransHipBase(trig, row).value == BaseStar(trig, ParseBaseRow(row).value);
    }
  }

  /** The hemisphere flag: the same fields read as southern give the same
      star with its declination negated and the same number, right
      ascension, size and colour. */
  lemma HemisphereFlag(trig: Trig, f: BaseFields)
    ensures var n := BaseStar(trig, f.(south := false));
            var s := BaseStar(trig, f.(south := true));
            s.dec == -n.dec && s.ra == n.ra && s.hip == n.hip && s.size == n.size && s.color == n.color
  {
  }

  /** The numbers of a constellation-line star row (hip, RA h, m, s,
      dec d, m, s, magnitude, ..., spectral type at index 13), with the
      spectral type already turned into its colour index. */
  datatype LineFields = LineFields(hip: int, raH: int, raM: int, raS: real,
                                   decD: int, decM: int, decS: real, mag: real, color: int)

  /** The field reads of `trans_hip_line`, in Python's evaluation order:
      the RA triple, the declination triple, the magnitude, the number, then
      the first character of the spectral type. */
  function ParseLineRow(row: Row): (r: Result<LineFields>)
    ensures r.Ok? <==>
      && |row| >= 14
      && ParseInt(row[1]).Ok? && ParseInt(row[2]).Ok? && ParseDecimal(row[3]).Ok?
      && ParseInt(row[4]).Ok? && ParseInt(row[5]).Ok? && ParseDecimal(row[6]).Ok?
      && ParseDecimal(row[7]).Ok? && ParseInt(row[0]).Ok? && row[13] != []
    ensures r.Ok? ==> r.value.hip == ParseInt(row[0]).value && r.value.mag == ParseDecimal(row[7]).value
    ensures r.Ok? ==> r.value.color == SpectralColor(row[13]).value
    ensures r.Ok? ==> && r.value.raH == ParseInt(row[1]).value && r.value.raM == ParseInt(row[2]).value
                      && r.value.raS == ParseDecimal(row[3]).value
    ensures r.Ok? ==> && r.value.decD == ParseInt(row[4]).value && r.value.decM == ParseInt(row[5]).value
                      && r.value.decS == ParseDecimal(row[6]).value
  {
    var h :- IntField(row, 1);
    var m :- IntField(row, 2);
    var s :- RealField(row, 3);
    var d :- IntField(row, 4);
    var dm :- IntField(row, 5);
    var ds :- RealField(row, 6);
    var mag :- RealField(row, 7);
    var hip :- IntField(row, 0);
    var spectral :- Field(row, 13);
    var color :- SpectralColor(spectral);
    Ok(LineFields(hip, h, m, s, d, dm, ds, mag, color))
  }

  /** The arithmetic of `trans_hip_line`: both angles normalised into
      `[0, 2 pi)`; no hemisphere flag. The right ascension is the RA triple's
      direction, the declination the declination triple's, and the position
      is the point at those angles at distance 100. */
  function LineStar(trig: Trig, f: LineFields): (star: Star)
    ensures star.hip == f.hip && star.color == f.color && star.size == Brightness(f.mag)
    ensures 0.0 <= star.ra < 2.0 * Pi && 0.0 <= star.dec < 2.0 * Pi
    ensures SameDirection(LonDegrees(f.raH, f.raM, f.raS), Degrees(star.ra))
    ensures SameDirection(LatDegrees(f.decD, f.decM, f.decS), Degrees(star.dec))
    ensures Position(star) == CalculateXyz(trig, star.ra, star.dec, StarRadius)
  {
    var ra := NormalRadians(LonDegrees(f.raH, f.raM, f.raS));
    var dec := NormalRadians(LatDegrees(f.decD, f.decM, f.decS));
    var p := CalculateXyz(trig, ra, dec, StarRadius);
    Star(f.hip, p.x, p.y, p.z, ra, dec, Brightness(f.mag), f.color)
  }

  /** `trans_hip_line`: a constellation-line star row to a star record
      coloured by its spectral class; it fails exactly when a field is
      missing or not a number, or the spectral type is empty. */
  function TransHipLine(trig: Trig, row: Row): (r: Result<Star>)
    ensures r.Ok? <==> ParseLineRow(row).Ok?
    ensures r.Ok? ==> r.value.hip == ParseInt(row[0]).value
    ensures r.Ok? ==> 0.0 <= r.value.ra < 2.0 * Pi && 0.0 <= r.value.dec < 2.0 * Pi
    ensures r.Ok? ==> r.value.size == Brightness(ParseDecimal(row[7]).value)
    ensures r.Ok? ==> r.value.color == SpectralColor(row[13]).value
  {
    var fields :- ParseLineRow(row);
    Ok(LineStar(trig, fields))
  }

  /** `trans_hip_line` on a row: the right ascension is fields 1-3 read as
      hours, minutes and seconds, and the declination fields 4-6 read as
      degrees, arc-minutes and arc-seconds, each brought into `[0, 2 pi)` by
      `NormalRadians`. */
  lemma TransHipLineAngles(trig: Trig, row: Row)
    ensures TransHipLine(trig, row).Ok? ==>
            var star := TransHipLine(trig, row).value;
            && star.ra == NormalRadians(LonDegrees(ParseInt(row[1]).value, ParseInt(row[2]).value, ParseDecimal(row[3]).value))
            && star.dec == NormalRadians(LatDegrees(ParseInt(row[4]).value, ParseInt(row[5]).value, ParseDecimal(row[6]).value))
  {
    if TransHipLine(trig, row).Ok? {
      assert TransHipLine(trig, row).value == LineStar(trig, ParseLineRow(row).value);
    }
  }

  /** x, y, z of a `trans_hip_line` star are the point at its own right
      ascension and declination at distance 100. */
  lemma TransHipLinePosition(trig: Trig, row: Row)
    ensures TransHipLine(trig, row).Ok? ==>
            var star := TransHipLine(trig, row).value;
            Position(star) == CalculateXyz(trig, star.ra, star.dec, StarRadius)
  {
    if TransHipLine(trig, row).Ok? {
      assert TransHipLine(trig, row).value == LineStar(trig, ParseLineRow(row).value);
    }
  }

  /** Every transformed star indexes an existing entry of `colors` and
      `color_materials`. */
  lemma StarColorInPalette(trig: Trig, row: Row)
    ensures TransHipBase(trig, row).Ok? ==> 0 <= TransHipBase(trig, row).value.color < |Palette|
    ensures TransHipLine(trig, row).Ok? ==> 0 <= TransHipLine(trig, row).value.color < |Palette|
  {
  }

  /** `trans_hip_base` puts a star at distance 100 from the origin whenever
      sine and cosine agree at its angles. */
  lemma BaseStarOnSphere(trig: Trig, f: BaseFields)
    requires OnUnitCircle(trig, BaseStar(trig, f).ra) && OnUnitCircle(trig, BaseStar(trig, f).dec)
    ensures Norm2(Position(BaseStar(trig, f))) == StarRadius * StarRadius
  {
    var star := BaseStar(trig, f);
    CalculateXyzOnSphere(trig, star.ra, star.dec, StarRadius);
  }

  /** The same for `trans_hip_line`. */
  lemma LineStarOnSphere(trig: Trig, f: LineFields)
    requires OnUnitCircle(trig, LineStar(trig, f).ra) && OnUnitCircle(trig, LineStar(trig, f).dec)
    ensures Norm2(Position(LineStar(trig, f))) == StarRadius * StarRadius
  {
    var star := LineStar(trig, f);
    CalculateXyzOnSphere(trig, star.ra, star.dec, StarRadius);
  }

  /** Where a constellation name is drawn: `star_line_pos` gives whole hours
      and minutes of right ascension and whole degrees of declination, which
      go through the same conversions and `% 360`, at distance 99. */
  function LabelPosition(trig: Trig, lonH: int, lonM: int, lat: int): Vec3 {
    var ra := NormalRadians(LonDegrees(lonH, lonM, 0.0));
    var dec := NormalRadians(LatDegrees(lat, 0, 0.0));
    CalculateXyz(trig, ra, dec, LabelRadius)
  }

  /** Labels sit on the sphere of radius 99, just inside the stars. */
  lemma LabelOnSphere(trig: Trig, lonH: int, lonM: int, lat: int)
    requires OnUnitCircle(trig, NormalRadians(LonDegrees(lonH, lonM, 0.0)))
    requires OnUnitCircle(trig, NormalRadians(LatDegrees(lat, 0, 0.0)))
    ensures Norm2(LabelPosition(trig, lonH, lonM, lat)) == LabelRadius * LabelRadius
  {
    CalculateXyzOnSphere(trig, NormalRadians(LonDegrees(lonH, lonM, 0.0)),
                         NormalRadians(LatDegrees(lat, 0, 0.0)), LabelRadius);
  }
}

=== FILE: text.dfy ===
/** Python's string handling as the catalog transforms use it: `str.strip`,
    `int(text)` and `float(text)` on the CSV fields, and `str(n)` as the
    inverse that the parsing round-trips are stated against. */
module Text {
  import opened Results

  /** Python's `str.isspace()`: the characters `strip()` removes. */
  predicate IsSpace(c: char) {
    ('\t' <= c <= '\r') || ('\U{1c}' <= c <= ' ') || c == '\U{85}' || c == '\U{a0}'
    || c == '\U{1680}' || ('\U{2000}' <= c <= '\U{200a}') || c == '\U{2028}'
    || c == '\U{2029}' || c == '\U{202f}' || c == '\U{205f}' || c == '\U{3000}'
  }

  /** The whitespace `int()` and `float()` skip around a number. CPython first
      turns every non-ASCII `isspace()` character into ' ' and then skips only
      '\t' to '\r' and ' ', so the separators U+001C to U+001F, which `strip()`
      removes, make the number invalid. */
  predicate IsNumberSpace(c: char) {
    ('\t' <= c <= '\r') || c == ' ' || c == '\U{85}' || c == '\U{a0}'
    || c == '\U{1680}' || ('\U{2000}' <= c <= '\U{200a}') || c == '\U{2028}'
    || c == '\U{2029}' || c == '\U{202f}' || c == '\U{205f}' || c == '\U{3000}'
  }

  /** The whitespace `int()` skips is exactly `isspace()` less U+001C to U+001F. */
  lemma NumberSpaceIsSpace(c: char)
    ensures IsNumberSpace(c) <==> IsSpace(c) && !('\U{1c}' <= c <= '\U{1f}')
  {
  }

  predicate IsDigit(c: char) {
    '0' <= c <= '9'
  }

  predicate AllDigits(s: string) {
    forall i :: 0 <= i < |s| ==> IsDigit(s[i])
  }

  predicate AllCut(s: string, cut: char -> bool) {
    forall i :: 0 <= i < |s| ==> cut(s[i])
  }

  /** Drops the leading characters that `cut` selects. */
  function StripLeft(s: string, cut: char -> bool): (r: string)
    ensures |r| <= |s|
    ensures r != [] ==> !cut(r[0]) && r[|r| - 1] == s[|s| - 1]
    decreases |s|
  {
    if s != [] && cut(s[0]) then StripLeft(s[1..], cut) else s
  }

  /** Drops the trailing characters that `cut` selects. */
  function StripRight(s: string, cut: char -> bool): (r: string)
    ensures |r| <= |s|
    ensures r != [] ==> !cut(r[|r| - 1]) && r[0] == s[0]
    decreases |s|
  {
    if s != [] && cut(s[|s| - 1]) then StripRight(s[..|s| - 1], cut) else s
  }

  /** Only selected characters are dropped on the left, and what remains
      is the rest of `s` unchanged. */
  lemma StripLeftSuffix(s: string, cut: char -> bool)
    ensures var r := StripLeft(s, cut);
            r == s[|s| - |r|..] && AllCut(s[..|s| - |r|], cut)
  {
    StripLeftIsSuffix(s, cut);
    StripLeftDropsCut(s, cut);
    var k := |s| - |StripLeft(s, cut)|;
    forall i | 0 <= i < k
      ensures cut(s[..k][i])
    {
      assert s[..k][i] == s[i];
    }
  }

  lemma {:induction false} StripLeftIsSuffix(s: string, cut: char -> bool)
    ensures var r := StripLeft(s, cut);
            r == s[|s| - |r|..]
    decreases |s|
  {
    if s != [] && cut(s[0]) {
      StripLeftIsSuffix(s[1..], cut);
      var r := StripLeft(s[1..], cut);
      assert s[1..][|s| - 1 - |r|..] == s[|s| - |r|..];
    }
  }

  lemma {:induction false} StripLeftDropsCut(s: string, cut: char -> bool)
    ensures forall i :: 0 <= i < |s| - |StripLeft(s, cut)| ==> cut(s[i])
    decreases |s|
  {
    if s != [] && cut(s[0]) {
      StripLeftDropsCut(s[1..], cut);
      forall i | 0 < i < |s| - |StripLeft(s, cut)|
        ensures cut(s[i])
      {
        assert s[i] == s[1..][i - 1];
      }
    }
  }

  /** Only selected characters are dropped on the right, and what remains
      is the start of `s` unchanged. */
  lemma {:induction false} StripRightPrefix(s: string, cut: char -> bool)
    ensures var r := StripRight(s, cut);
            r == s[..|r|] && AllCut(s[|r|..], cut)
    decreases |s|
  {
    if s != [] && cut(s[|s| - 1]) {
      var t := s[..|s| - 1];
      StripRightPrefix(t, cut);
      var r := StripRight(t, cut);
      assert t[..|r|] == s[..|r|];
      assert s[|r|..] == t[|r|..] + [s[|s| - 1]];
    } else {
      assert s[|s|..] == [];
    }
  }

  /** Python `s.strip()` (cut = IsSpace) and `s.strip(chars)`: both ends. */
  function Strip(s: string, cut: char -> bool): (r: string)
    ensures |r| <= |s|
    ensures r != [] ==> !cut(r[0]) && !cut(r[|r| - 1])
  {
    StripRight(StripLeft(s, cut), cut)
  }

  lemma {:induction false} StripLeftPadded(p: string, m: string, cut: char -> bool)
    requires AllCut(p, cut)
    requires m != [] ==> !cut(m[0])
    ensures StripLeft(p + m, cut) == m
    decreases |p|
  {
    if p == [] {
      assert p + m == m;
    } else {
      assert (p + m)[1..] == p[1..] + m;
      StripLeftPadded(p[1..], m, cut);
    }
  }

  lemma {:induction false} StripRightPadded(m: string, q: string, cut: char -> bool)
    requires AllCut(q, cut)
    requires m != [] ==> !cut(m[|m| - 1])
    ensures StripRight(m + q, cut) == m
    decreases |q|
  {
    if q == [] {
      assert m + q == m;
    } else {
      assert (m + q)[..|m + q| - 1] == m + q[..|q| - 1];
      StripRightPadded(m, q[..|q| - 1], cut);
    }
  }

  /** Stripping removes exactly the padding: whatever run of `cut` characters
      surrounds a core whose ends are kept, the core is what comes back. */
  lemma StripPadded(p: string, m: string, q: string, cut: char -> bool)
    requires AllCut(p, cut) && AllCut(q, cut)
    requires m != [] ==> !cut(m[0]) && !cut(m[|m| - 1])
    ensures Strip(p + m + q, cut) == m
  {
    if m == [] {
      assert p + m + q == p + q;
      assert AllCut(p + q, cut) by {
        forall i | 0 <= i < |p + q| ensures cut((p + q)[i]) {
          if i >= |p| { assert (p + q)[i] == q[i - |p|]; }
        }
      }
      assert p + q + [] == p + q;
      StripLeftPadded(p + q, [], cut);
      assert StripRight([], cut) == [];
    } else {
      assert p + m + q == p + (m + q);
      StripLeftPadded(p, m + q, cut);
      StripRightPadded(m, q, cut);
    }
  }

  /** A string whose ends are kept is its own strip. */
  lemma StripUnpadded(s: string, cut: char -> bool)
    requires s != [] ==> !cut(s[0]) && !cut(s[|s| - 1])
    ensures Strip(s, cut) == s
  {
    StripLeftPadded([], s, cut);
    StripRightPadded(s, [], cut);
  }

  /** Stripping twice is stripping once. */
  lemma StripIdempotent(s: string, cut: char -> bool)
    ensures Strip(Strip(s, cut), cut) == Strip(s, cut)
  {
    StripUnpadded(Strip(s, cut), cut);
  }

  function DigitValue(c: char): (v: nat)
    requires IsDigit(c)
    ensures v < 10
  {
    (c as int) - ('0' as int)
  }

  function Digit(v: nat): (c: char)
    requires v < 10
    ensures IsDigit(c) && DigitValue(c) == v
  {
    ('0' as int + v) as char
  }

  /** The number a run of decimal digits denotes, most significant first. */
  function DigitsValue(s: string): nat
    requires AllDigits(s)
    decreases |s|
  {
    if s == [] then 0 else 10 * DigitsValue(s[..|s| - 1]) + DigitValue(s[|s| - 1])
  }

  function Pow10(n: nat): (r: nat)
    ensures r >= 1
  {
    if n == 0 then 1 else 10 * Pow10(n - 1)
  }

  /** An optional leading sign: whether it is '-', and the rest. */
  function SplitSign(t: string): (bool, string) {
    if t != [] && (t[0] == '+' || t[0] == '-') then (t[0] == '-', t[1..]) else (false, t)
  }

  /** Python `int(text)` in base 10: surrounding whitespace, an optional sign,
      one or more decimal digits; anything else raises ValueError. */
  function ParseInt(text: string): Result<int> {
    var (negative, body) := SplitSign(Strip(text, IsNumberSpace));
    if body != [] && AllDigits(body) then
      var magnitude: int := DigitsValue(body);
      Ok(if negative then -magnitude else magnitude)
    else
      Err(ValueError(text))
  }

  /** The file separator U+001C is whitespace to `strip()` but not to
      `int()`: "\x1c5" strips to "5", yet `int("\x1c5")` raises. */
  lemma SeparatorIsNotNumberSpace()
    ensures Strip("\U{1c}5", IsSpace) == "5"
    ensures ParseInt("\U{1c}5") == Err(ValueError("\U{1c}5"))
  {
    StripPadded("\U{1c}", "5", [], IsSpace);
    assert "\U{1c}" + "5" + [] == "\U{1c}5";
    StripUnpadded("\U{1c}5", IsNumberSpace);
    assert !IsDigit("\U{1c}5"[0]);
  }

  /** What `int()` accepts: a failure is ValueError naming the text; a
      success has, once the skipped whitespace is gone, a digit at the end
      and a '-' in front when the value is negative. */
  lemma ParseIntShape(text: string)
    ensures ParseInt(text).Err? ==> ParseInt(text).error == ValueError(text)
    ensures ParseInt(text).Ok? ==>
              var t := Strip(text, IsNumberSpace);
              t != [] && IsDigit(t[|t| - 1]) && (ParseInt(text).value < 0 ==> t[0] == '-')
  {
  }

  /** What `float()` accepts: a failure is ValueError naming the text; a
      success is not blank once the skipped whitespace is gone, and has a
      '-' in front when the value is negative. */
  lemma ParseDecimalShape(text: string)
    ensures ParseDecimal(text).Err? ==> ParseDecimal(text).error == ValueError(text)
    ensures ParseDecimal(text).Ok? ==>
              var t := Strip(text, IsNumberSpace);
              t != [] && (ParseDecimal(text).value < 0.0 ==> t[0] == '-')
  {
  }

  /** Index of the first '.' in `s`, or `|s|` when there is none. */
  function PointIndex(s: string): (k: nat)
    ensures k <= |s|
    ensures k < |s| ==> s[k] == '.'
    ensures forall i :: 0 <= i < k ==> s[i] != '.'
  {
    if s == [] then 0 else if s[0] == '.' then 0 else 1 + PointIndex(s[1..])
  }

  /** Where the fractional digits of an unsigned decimal start, if any. */
  function WholePart(body: string): string {
    body[..PointIndex(body)]
  }

  function FractionPart(body: string): string {
    var k := PointIndex(body);
    if k < |body| then body[k + 1..] else []
  }

  /** Digits with at most one '.', and at least one digit. */
  predicate IsDecimal(body: string) {
    AllDigits(WholePart(body)) && AllDigits(FractionPart(body))
    && |WholePart(body)| + |FractionPart(body)| > 0
  }

  /** `d` moved `n` decimal places to the right of the point: `d / 10^n`,
      one division by ten at a time. */
  function Shifted(d: nat, n: nat): (v: real)
    ensures 0.0 <= v
    decreases n
  {
    if n == 0 then d as real else Shifted(d, n - 1) / 10.0
  }

  /** Shifting by `n` places is division by `10^n`. */
  lemma {:induction false} ShiftedIsRatio(d: nat, n: nat)
    ensures Shifted(d, n) == d as real / Pow10(n) as real
    decreases n
  {
    if n > 0 {
      ShiftedIsRatio(d, n - 1);
      var p := Pow10(n - 1) as real;
      assert Pow10(n) as real == 10.0 * p;
      assert d as real / (10.0 * p) == (d as real / p) / 10.0;
    }
  }

  /** The value of whole digits `w` and fraction digits `f`: w + f / 10^|f|. */
  function PointValue(w: string, f: string): (v: real)
    requires AllDigits(w) && AllDigits(f)
    ensures 0.0 <= v
  {
    DigitsValue(w) as real + Shifted(DigitsValue(f), |f|)
  }

  /** The whole digits are the integer part: `|f|` fraction digits add less than one. */
  lemma PointValueWhole(w: string, f: string)
    requires AllDigits(w) && AllDigits(f)
    ensures DigitsValue(w) as real <= PointValue(w, f) < DigitsValue(w) as real + 1.0
  {
    ShiftedIsRatio(DigitsValue(f), |f|);
    DigitsBelowPow10(f);
    RatioBelowOne(DigitsValue(f), Pow10(|f|));
  }

  lemma {:induction false} DigitsBelowPow10(f: string)
    requires AllDigits(f)
    ensures DigitsValue(f) < Pow10(|f|)
    decreases |f|
  {
    if f != [] {
      var prefix := f[..|f| - 1];
      DigitsBelowPow10(prefix);
      assert |prefix| == |f| - 1;
    }
  }

  lemma RatioBelowOne(d: nat, n: nat)
    requires d < n
    ensures 0.0 <= d as real / n as real < 1.0
  {
    assert d as real / n as real * n as real == d as real;
  }

  function DecimalValue(body: string): real
    requires IsDecimal(body)
  {
    PointValue(WholePart(body), FractionPart(body))
  }

  /** Python `float(text)` for plain decimal notation: surrounding whitespace,
      an optional sign, digits with at most one '.', and at least one digit. */
  function ParseDecimal(text: string): Result<real> {
    var (negative, body) := SplitSign(Strip(text, IsNumberSpace));
    if IsDecimal(body) then
      Ok(if negative then -DecimalValue(body) else DecimalValue(body))
    else
      Err(ValueError(text))
  }

  /** Python `str(n)` for a natural number: its shortest decimal digits. */
  function ShowNat(n: nat): (s: string)
    ensures s != [] && AllDigits(s)
    ensures DigitsValue(s) == n
    decreases n
  {
    if n < 10 then [Digit(n)]
    else
      var prefix := ShowNat(n / 10);
      var s := prefix + [Digit(n % 10)];
      assert s[..|s| - 1] == prefix;
      s
  }

  /** Python `str(n)` for an integer. */
  function ShowInt(n: int): (s: string)
    ensures s != [] && !IsSpace(s[0]) && !IsSpace(s[|s| - 1])
  {
    if n < 0 then "-" + ShowNat(-n) else ShowNat(n)
  }

  lemma ShowIntUnpadded(n: int)
    ensures Strip(ShowInt(n), IsNumberSpace) == ShowInt(n)
  {
    StripUnpadded(ShowInt(n), IsNumberSpace);
  }

  /** `int()` reads back what `str()` writes, with any padding of the
      whitespace `int()` skips. */
  lemma ParseIntShowInt(n: int, p: string, q: string)
    requires AllCut(p, IsNumberSpace) && AllCut(q, IsNumberSpace)
    ensures ParseInt(p + ShowInt(n) + q) == Ok(n)
  {
    StripPadded(p, ShowInt(n), q, IsNumberSpace);
    if n < 0 {
      assert SplitSign(ShowInt(n)) == (true, ShowNat(-n));
    } else {
      assert SplitSign(ShowInt(n)) == (false, ShowNat(n));
    }
  }

  lemma PointIndexOfDigits(s: string)
    requires AllDigits(s)
    ensures PointIndex(s) == |s|
  {
  }

  lemma {:induction false} PointIndexAfterDigits(a: string, b: string)
    requires AllDigits(a)
    ensures PointIndex(a + "." + b) == |a|
    decreases |a|
  {
    if a == [] {
      assert (a + "." + b)[0] == '.';
    } else {
      assert (a + "." + b)[1..] == a[1..] + "." + b;
      PointIndexAfterDigits(a[1..], b);
    }
  }

  /** A digit run with no point reads as the integer it denotes. */
  lemma DecimalOfDigits(s: string)
    requires s != [] && AllDigits(s)
    ensures IsDecimal(s) && DecimalValue(s) == DigitsValue(s) as real
  {
    PointIndexOfDigits(s);
    assert WholePart(s) == s;
    assert FractionPart(s) == [];
  }

  /** Digits, a point, digits: the whole part plus the fraction over 10^|f|. */
  lemma DecimalWithPoint(w: string, f: string)
    requires AllDigits(w) && AllDigits(f) && |w| + |f| > 0
    ensures IsDecimal(w + "." + f)
    ensures DecimalValue(w + "." + f) == DigitsValue(w) as real + DigitsValue(f) as real / Pow10(|f|) as real
  {
    PointParts(w, f);
    ShiftedIsRatio(DigitsValue(f), |f|);
  }

  /** The point splits `w.f` back into `w` and `f`. */
  lemma PointParts(w: string, f: string)
    requires AllDigits(w) && AllDigits(f) && |w| + |f| > 0
    ensures WholePart(w + "." + f) == w && FractionPart(w + "." + f) == f
    ensures IsDecimal(w + "." + f) && DecimalValue(w + "." + f) == PointValue(w, f)
  {
    var body := w + "." + f;
    PointIndexAfterDigits(w, f);
    assert WholePart(body) == w;
    assert FractionPart(body) == f;
  }

  /** An optional sign as written in front of a number: none, '+' or '-'. */
  predicate IsSignText(sign: string) {
    sign == [] || sign == "+" || sign == "-"
  }

  /** A written sign in front of a body that starts with neither sign is
      split off again, '-' alone marking a negative number. */
  lemma SignedBody(sign: string, body: string)
    requires IsSignText(sign) && body != [] && body[0] != '+' && body[0] != '-'
    ensures SplitSign(sign + body) == (sign == "-", body)
  {
    if sign == [] {
      assert sign + body == body;
    } else {
      assert (sign + body)[0] == sign[0] && (sign + body)[1..] == body;
    }
  }

  /** Padding of skipped whitespace around a signed body comes off, and
      only the padding. */
  lemma StripSigned(p: string, sign: string, body: string, q: string)
    requires AllCut(p, IsNumberSpace) && AllCut(q, IsNumberSpace) && IsSignText(sign)
    requires body != [] && !IsNumberSpace(body[0]) && !IsNumberSpace(body[|body| - 1])
    ensures Strip(p + sign + body + q, IsNumberSpace) == sign + body
  {
    SignedEnds(sign, body);
    StripPadded(p, sign + body, q, IsNumberSpace);
    ConcatAssoc(p, sign, body);
  }

  lemma SignedEnds(sign: string, body: string)
    requires IsSignText(sign)
    requires body != [] && !IsNumberSpace(body[0]) && !IsNumberSpace(body[|body| - 1])
    ensures var core := sign + body;
            core != [] && !IsNumberSpace(core[0]) && !IsNumberSpace(core[|core| - 1])
  {
    var core := sign + body;
    assert core[0] == (if sign == [] then body[0] else sign[0]);
    assert core[|core| - 1] == body[|body| - 1];
  }

  lemma ConcatAssoc(a: string, b: string, c: string)
    ensures a + b + c == a + (b + c)
  {
  }

  /** `int()` on any digit run, with leading zeros, an optional sign and any
      padding of the whitespace it skips, is the value the digits denote,
      negated after '-' ("-0" reads as 0). */
  lemma ParseIntDigits(p: string, sign: string, w: string, q: string)
    requires AllCut(p, IsNumberSpace) && AllCut(q, IsNumberSpace) && IsSignText(sign)
    requires w != [] && AllDigits(w)
    ensures var v: int := DigitsValue(w);
            ParseInt(p + sign + w + q) == Ok(if sign == "-" then -v else v)
  {
    StripSigned(p, sign, w, q);
    ParseIntOfCore(p + sign + w + q, sign, w);
  }

  lemma ParseIntOfCore(text: string, sign: string, w: string)
    requires IsSignText(sign) && w != [] && AllDigits(w)
    requires Strip(text, IsNumberSpace) == sign + w
    ensures var v: int := DigitsValue(w);
            ParseInt(text) == Ok(if sign == "-" then -v else v)
  {
    SignedBody(sign, w);
  }

  /** `float()` on digits, a point and digits, either run possibly empty but
      not both, with leading zeros, an optional sign and any padding of the
      skipped whitespace: the whole part plus the fraction over 10^|f|,
      negated after '-'. Covers "5.03", "-.5" and "5.". */
  lemma ParseDecimalPointed(p: string, sign: string, w: string, f: string, q: string)
    requires AllCut(p, IsNumberSpace) && AllCut(q, IsNumberSpace) && IsSignText(sign)
    requires AllDigits(w) && AllDigits(f) && |w| + |f| > 0
    ensures ParseDecimal(p + sign + (w + "." + f) + q)
            == Ok(if sign == "-" then -PointValue(w, f) else PointValue(w, f))
  {
    PointedEnds(w, f);
    StripSigned(p, sign, w + "." + f, q);
    PointedOfCore(p + sign + (w + "." + f) + q, sign, w, f);
  }

  lemma PointedOfCore(text: string, sign: string, w: string, f: string)
    requires IsSignText(sign) && AllDigits(w) && AllDigits(f) && |w| + |f| > 0
    requires Strip(text, IsNumberSpace) == sign + (w + "." + f)
    ensures ParseDecimal(text) == Ok(if sign == "-" then -PointValue(w, f) else PointValue(w, f))
  {
    var body := w + "." + f;
    PointedEnds(w, f);
    PointParts(w, f);
    StrippedSplit(text, sign, body);
    ParseDecimalSplit(text, sign == "-", body, PointValue(w, f));
  }

  lemma PointedEnds(w: string, f: string)
    requires AllDigits(w) && AllDigits(f)
    ensures var body := w + "." + f;
            body != [] && body[0] != '+' && body[0] != '-'
            && !IsNumberSpace(body[0]) && !IsNumberSpace(body[|body| - 1])
  {
    var body := w + "." + f;
    assert body[0] == (if w == [] then '.' else w[0]);
    assert body[|body| - 1] == (if f == [] then '.' else f[|f| - 1]);
  }

  /** Once stripped, a text written as a sign and a body not led by a sign
      splits into that sign and that body. */
  lemma StrippedSplit(text: string, sign: string, body: string)
    requires IsSignText(sign) && body != [] && body[0] != '+' && body[0] != '-'
    requires Strip(text, IsNumberSpace) == sign + body
    ensures SplitSign(Strip(text, IsNumberSpace)) == (sign == "-", body)
  {
    SignedBody(sign, body);
  }

  /** `float()` once the sign is split off: a decimal body is read as its
      value `v`, negated when the sign was '-'. */
  lemma ParseDecimalSplit(text: string, negative: bool, body: string, v: real)
    requires SplitSign(Strip(text, IsNumberSpace)) == (negative, body)
    requires IsDecimal(body) && DecimalValue(body) == v
    ensures ParseDecimal(text) == Ok(if negative then -v else v)
  { }

  /** A leading zero does not change the number a digit run denotes. */
  lemma {:induction false} LeadingZeroValue(w: string)
    requires AllDigits(w)
    ensures AllDigits("0" + w) && DigitsValue("0" + w) == DigitsValue(w)
    decreases |w|
  {
    var z := "0" + w;
    assert AllDigits(z) by {
      forall i | 0 <= i < |z| ensures IsDigit(z[i]) {
        if i > 0 { assert z[i] == w[i - 1]; }
      }
    }
    if w == [] {
      assert z[..0] == [];
    } else {
      var w' := w[..|w| - 1];
      assert z[..|z| - 1] == "0" + w';
      assert z[|z| - 1] == w[|w| - 1];
      LeadingZeroValue(w');
    }
  }

  /** Different texts, one number: `int()` reads a digit run with a zero in
      front ("07") as the run itself ("7"). */
  lemma LeadingZeroSameNumber(w: string)
    requires w != [] && AllDigits(w)
    ensures ParseInt("0" + w) == ParseInt(w) == Ok(DigitsValue(w) as int)
  {
    LeadingZeroValue(w);
    ParseIntDigits([], [], "0" + w, []);
    ParseIntDigits([], [], w, []);
    Unpadded("0" + w);
    Unpadded(w);
  }

  /** No padding and no sign around a text leave the text. */
  lemma Unpadded(x: string)
    ensures [] + [] + x + [] == x
  {
  }

  /** `float()` on a digit run without a point, with an optional sign and
      padding, is the integer the digits denote, negated after '-'. */
  lemma ParseDecimalDigits(p: string, sign: string, w: string, q: string)
    requires AllCut(p, IsNumberSpace) && AllCut(q, IsNumberSpace) && IsSignText(sign)
    requires w != [] && AllDigits(w)
    ensures var v := DigitsValue(w) as real;
            ParseDecimal(p + sign + w + q) == Ok(if sign == "-" then -v else v)
  {
    StripSigned(p, sign, w, q);
    DigitsOfCore(p + sign + w + q, sign, w);
  }

  lemma DigitsOfCore(text: string, sign: string, w: string)
    requires IsSignText(sign) && w != [] && AllDigits(w)
    requires Strip(text, IsNumberSpace) == sign + w
    ensures var v := DigitsValue(w) as real;
            ParseDecimal(text) == Ok(if sign == "-" then -v else v)
  {
    DecimalOfDigits(w);
    StrippedSplit(text, sign, w);
    ParseDecimalSplit(text, sign == "-", w, DigitsValue(w) as real);
  }

  /** `float()` of an integer's decimal form is that integer. */
  lemma ParseDecimalShowInt(n: int)
    ensures ParseDecimal(ShowInt(n)) == Ok(n as real)
  {
    var text := ShowInt(n);
    ShowIntUnpadded(n);
    var magnitude: nat := if n < 0 then -n else n;
    assert SplitSign(text) == (n < 0, ShowNat(magnitude));
    DecimalOfDigits(ShowNat(magnitude));
  }
}

=== FILE: tube.dfy ===
/** `create_line_cube`: the mesh of one constellation line, a tube of
    rectangular cross-section between two stars. Right ascension and
    declination are each interpolated linearly with `numpy.linspace`, `div`
    samples; at each sample four corner points are laid around the point at
    radius 100.5, forming a `sqrt(2) * size` by `size` rectangle in the fixed
    plane spanned by (1, 1, 0) and (0, 0, 1), and consecutive samples are
    joined by four quadrilateral faces. The Blender calls that
    turn the vertex and face lists into an object are not modelled. */
module Tube {
  import opened Results
  import opened Angles
  import opened Sphere

  /** `numpy.linspace(start, stop, num)` with the default `endpoint=True`:
      a negative count raises ValueError, one sample is `start`, and for two
      or more samples the last one is set to `stop` exactly. */
  function Linspace(start: real, stop: real, num: int): (r: Result<seq<real>>)
    ensures r.Ok? <==> num >= 0
    ensures r.Ok? ==> |r.value| == num
    ensures r.Ok? && num >= 1 ==> r.value[0] == start
    ensures r.Ok? && num >= 2 ==> r.value[num - 1] == stop
  {
    if num < 0 then Err(ValueError("Number of samples must be non-negative"))
    else if num == 1 then Ok([start])
    else
      var step := (stop - start) / (num - 1) as real;
      Ok(seq(num, i requires 0 <= i < num => if i == num - 1 then stop else start + i as real * step))
  }

  lemma LastStep(start: real, stop: real, n: int)
    requires n >= 1
    ensures start + (n - 1) as real * ((stop - start) / n as real) + (stop - start) / n as real == stop
  {
    var step := (stop - start) / n as real;
    assert (n - 1) as real * step + step == n as real * step;
  }

  /** Consecutive samples are evenly spaced, `(stop - start) / (num - 1)` apart. */
  lemma LinspaceEven(start: real, stop: real, num: int, i: int)
    requires num >= 2 && 0 <= i < num - 1
    ensures Linspace(start, stop, num).Ok?
    ensures Linspace(start, stop, num).value[i + 1] - Linspace(start, stop, num).value[i]
            == (stop - start) / (num - 1) as real
  {
    if i == num - 2 {
      LastStep(start, stop, num - 1);
    }
  }

  /** The samples run from `start` towards `stop` without turning back. */
  lemma LinspaceMonotone(start: real, stop: real, num: int, i: int)
    requires start <= stop && num >= 2 && 0 <= i < num - 1
    ensures Linspace(start, stop, num).value[i] <= Linspace(start, stop, num).value[i + 1]
  {
    LinspaceEven(start, stop, num, i);
  }

  /** A point of the sky as (right ascension, declination). */
  type Angle2 = (real, real)

  /** `np.deg2rad` on both endpoints when `degree` is set. */
  function EndpointRadians(p: Angle2, degree: bool): (q: Angle2)
    ensures !degree ==> q == p
    ensures degree ==> (p.0 < 0.0 <==> q.0 < 0.0) && (p.1 < 0.0 <==> q.1 < 0.0)
  {
    if degree then (Radians(p.0), Radians(p.1)) else p
  }

  /** The unit vector `(x_t, y_t, z_t)` of sample `i` on the path from `a` to `b`. */
  function SampleUnit(trig: Trig, a: Angle2, b: Angle2, degree: bool, div: int, i: int): Vec3
    requires 0 <= i < div
  {
    var a' := EndpointRadians(a, degree);
    var b' := EndpointRadians(b, degree);
    Unit(trig, Linspace(a'.0, b'.0, div).value[i], Linspace(a'.1, b'.1, div).value[i])
  }

  /** `(x_t, y_t, z_t)` at one right ascension and declination. */
  function Unit(trig: Trig, ra: real, dec: real): Vec3 {
    Vec3(trig.cos(ra) * trig.cos(dec), trig.sin(ra) * trig.cos(dec), trig.sin(dec))
  }

  /** Offset of strip `k` from the centre line, for a tube of width `size`:
      strips 0 and 1 lie below, 2 and 3 above; 0 and 2 on the negative x-y
      side, 1 and 3 on the positive one. */
  function Offset(k: int, size: real): Vec3
    requires 0 <= k < 4
  {
    var h := size / 2.0;
    match k
    case 0 => Vec3(-h, -h, -h)
    case 1 => Vec3(h, h, -h)
    case 2 => Vec3(-h, -h, h)
    case 3 => Vec3(h, h, h)
  }

  /** Radius of the tube's centre line: just outside the star sphere. */
  const TubeRadius: real := 100.5

  /** The vertex of strip `k` at a sample with unit vector `u`. */
  function Corner(k: int, size: real, u: Vec3): Vec3
    requires 0 <= k < 4
  {
    Add(Offset(k, size), Scale(TubeRadius, u))
  }

  /** Position in a list made of blocks of `n`: element `i` of block `k`. */
  function Slot(n: int, k: int, i: int): int {
    k * n + i
  }

  /** A quadrilateral face given by four vertex indices. */
  datatype Quad = Quad(a: int, b: int, c: int, d: int)

  datatype Mesh = Mesh(verts: seq<Vec3>, faces: seq<Quad>)

  /** The two strips joined by face `t` of a step: bottom, top, the
      negative side, the positive side. */
  function StripPair(t: int): (int, int)
    requires 0 <= t < 4
  {
    match t
    case 0 => (0, 1)
    case 1 => (2, 3)
    case 2 => (0, 2)
    case 3 => (1, 3)
  }

  /** Face `t` of step `i`: from sample `i` to `i + 1` along one strip and
      back along the other. */
  function FaceAt(div: int, i: int, t: int): Quad
    requires 0 <= t < 4
  {
    var (ka, kb) := StripPair(t);
    Quad(Slot(div, ka, i), Slot(div, ka, i + 1), Slot(div, kb, i + 1), Slot(div, kb, i))
  }

  /** Number of steps between samples, the `range(div - 1)` of the face loop. */
  function Steps(div: int): nat {
    if div >= 1 then div - 1 else 0
  }

  /** The vertex loop: sample `i` adds one corner to each of the four strips. */
  method VertexStrips(trig: Trig, ras: seq<real>, decs: seq<real>, size: real)
    returns (strips: seq<seq<Vec3>>)
    requires |ras| == |decs|
    ensures |strips| == 4 && forall k :: 0 <= k < 4 ==> |strips[k]| == |ras|
    ensures forall k, j :: 0 <= k < 4 && 0 <= j < |ras| ==>
              strips[k][j] == Corner(k, size, Unit(trig, ras[j], decs[j]))
  {
    var s0, s1, s2, s3 := [], [], [], [];
    var i := 0;
    while i < |ras|
      invariant 0 <= i <= |ras|
      invariant |s0| == |s1| == |s2| == |s3| == i
      invariant forall j :: 0 <= j < i ==> s0[j] == Corner(0, size, Unit(trig, ras[j], decs[j]))
      invariant forall j :: 0 <= j < i ==> s1[j] == Corner(1, size, Unit(trig, ras[j], decs[j]))
      invariant forall j :: 0 <= j < i ==> s2[j] == Corner(2, size, Unit(trig, ras[j], decs[j]))
      invariant forall j :: 0 <= j < i ==> s3[j] == Corner(3, size, Unit(trig, ras[j], decs[j]))
    {
      var u := Unit(trig, ras[i], decs[i]);
      s0, s1, s2, s3 := s0 + [Corner(0, size, u)], s1 + [Corner(1, size, u)],
                        s2 + [Corner(2, size, u)], s3 + [Corner(3, size, u)];
      i := i + 1;
    }
    strips := [s0, s1, s2, s3];
  }

  /** The four faces the face loop appends for step `i`, as written there. */
  function StepFaces(div: int, i: int): (faces: seq<Quad>)
    ensures |faces| == 4 && forall t :: 0 <= t < 4 ==> faces[t] == FaceAt(div, i, t)
  {
    [Quad(i, i + 1, div + i + 1, div + i),
     Quad(div * 2 + i, div * 2 + i + 1, div * 3 + i + 1, div * 3 + i),
     Quad(i, i + 1, div * 2 + i + 1, div * 2 + i),
     Quad(div + i, div + i + 1, div * 3 + i + 1, div * 3 + i)]
  }

  /** The face loop over `range(div - 1)`. */
  method TubeFaces(div: int) returns (faces: seq<Quad>)
    ensures |faces| == 4 * Steps(div)
    ensures forall i, t :: 0 <= i < div - 1 && 0 <= t < 4 ==> faces[4 * i + t] == FaceAt(div, i, t)
  {
    faces := [];
    var i := 0;
    while i < div - 1
      invariant 0 <= i <= Steps(div)
      invariant |faces| == 4 * i
      invariant forall j, t :: 0 <= j < i && 0 <= t < 4 ==> faces[4 * j + t] == FaceAt(div, j, t)
    {
      var step := StepFaces(div, i);
      AppendStep(faces, step, div, i);
      faces := faces + step;
      i := i + 1;
    }
  }

  /** Appending the faces of step `i` extends the face list by one step. */
  lemma AppendStep(faces: seq<Quad>, step: seq<Quad>, div: int, i: int)
    requires 0 <= i && |faces| == 4 * i
    requires forall j, t :: 0 <= j < i && 0 <= t < 4 ==> faces[4 * j + t] == FaceAt(div, j, t)
    requires |step| == 4 && forall t :: 0 <= t < 4 ==> step[t] == FaceAt(div, i, t)
    ensures |faces + step| == 4 * (i + 1)
    ensures forall j, t :: 0 <= j < i + 1 && 0 <= t < 4 ==> (faces + step)[4 * j + t] == FaceAt(div, j, t)
  {
    forall j, t | 0 <= j < i + 1 && 0 <= t < 4
      ensures (faces + step)[4 * j + t] == FaceAt(div, j, t)
    {
      if j == i {
        assert (faces + step)[4 * j + t] == step[t];
      } else {
        assert 4 * j + t < |faces|;
      }
    }
  }

  /** The vertex and face lists `create_line_cube` hands to `from_pydata`.
      The vertices are the four strips concatenated, each `div` long; the
      faces come four per step, in the order the loop appends them. */
  method BuildTube(trig: Trig, a: Angle2, b: Angle2, size: real, degree: bool, div: int)
    returns (r: Result<Mesh>)
    ensures r.Ok? <==> div >= 0
    ensures r.Ok? ==> |r.value.verts| == 4 * div && |r.value.faces| == 4 * Steps(div)
    ensures r.Ok? ==> forall k, i :: 0 <= k < 4 && 0 <= i < div ==>
              r.value.verts[Slot(div, k, i)] == Corner(k, size, SampleUnit(trig, a, b, degree, div, i))
    ensures r.Ok? ==> forall i, t :: 0 <= i < div - 1 && 0 <= t < 4 ==>
              r.value.faces[4 * i + t] == FaceAt(div, i, t)
  {
    var a' := EndpointRadians(a, degree);
    var b' := EndpointRadians(b, degree);
    var ras :- Linspace(a'.0, b'.0, div);
    var decs := Linspace(a'.1, b'.1, div).value;  // the same count was just accepted
    var strips := VertexStrips(trig, ras, decs, size);
    var verts := strips[0] + strips[1] + strips[2] + strips[3];
    forall k, j | 0 <= k < 4 && 0 <= j < div
      ensures verts[Slot(div, k, j)] == Corner(k, size, SampleUnit(trig, a, b, degree, div, j))
    {
      StripsConcat(strips, div, k, j);
    }
    var faces := TubeFaces(div);
    return Ok(Mesh(verts, faces));
  }

  /** Element `j` of block `k` of four concatenated blocks of length `n`. */
  lemma StripsConcat(strips: seq<seq<Vec3>>, n: int, k: int, j: int)
    requires |strips| == 4 && forall m :: 0 <= m < 4 ==> |strips[m]| == n
    requires 0 <= k < 4 && 0 <= j < n
    ensures (strips[0] + strips[1] + strips[2] + strips[3])[Slot(n, k, j)] == strips[k][j]
  {
  }

  /** Within blocks of `n`, a slot names one block and one position. */
  lemma SlotInjective(n: int, k: int, i: int, k': int, i': int)
    requires 0 <= i < n && 0 <= i' < n
    requires Slot(n, k, i) == Slot(n, k', i')
    ensures k == k' && i == i'
  {
    if k < k' {
      assert (k' - k) * n >= n by { MultiplyAtLeast(k' - k, n); }
      assert false;
    } else if k' < k {
      assert (k - k') * n >= n by { MultiplyAtLeast(k - k', n); }
      assert false;
    }
  }

  lemma MultiplyAtLeast(m: int, n: int)
    requires m >= 1 && n >= 0
    ensures m * n >= n
  {
  }

  /** Every face of the tube refers to four distinct existing vertices:
      each index lies in `[0, 4 * div)`. */
  lemma FaceIndicesValid(div: int, i: int, t: int)
    requires 0 <= i < div - 1 && 0 <= t < 4
    ensures var f := FaceAt(div, i, t);
            && 0 <= f.a < 4 * div && 0 <= f.b < 4 * div
            && 0 <= f.c < 4 * div && 0 <= f.d < 4 * div
            && f.a != f.b && f.a != f.c && f.a != f.d
            && f.b != f.c && f.b != f.d && f.c != f.d
  {
    var (ka, kb) := StripPair(t);
    assert ka != kb;
    var f := FaceAt(div, i, t);
    if f.a == f.c { SlotInjective(div, ka, i, kb, i + 1); }
    if f.a == f.d { SlotInjective(div, ka, i, kb, i); }
    if f.b == f.c { SlotInjective(div, ka, i + 1, kb, i + 1); }
    if f.b == f.d { SlotInjective(div, ka, i + 1, kb, i); }
  }

  /** No face is emitted twice: different steps or different strip pairs
      give different faces. */
  lemma FacesDistinct(div: int, i: int, t: int, i': int, t': int)
    requires 0 <= i < div - 1 && 0 <= t < 4
    requires 0 <= i' < div - 1 && 0 <= t' < 4
    requires FaceAt(div, i, t) == FaceAt(div, i', t')
    ensures i == i' && t == t'
  {
    var (ka, kb) := StripPair(t);
    var (ka', kb') := StripPair(t');
    SlotInjective(div, ka, i, ka', i');
    SlotInjective(div, kb, i, kb', i');
  }

  /** Vertex lists laid out as `create_line_cube` lays them out: strip `k`,
      sample `j` at slot `(k, j)`, around the unit vectors `units`. */
  predicate TubeLayout(verts: seq<Vec3>, size: real, units: seq<Vec3>) {
    && |verts| == 4 * |units|
    && forall k, j :: 0 <= k < 4 && 0 <= j < |units| ==>
         0 <= Slot(|units|, k, j) < |verts| && verts[Slot(|units|, k, j)] == Corner(k, size, units[j])
  }

  /** Each face is a parallelogram: its two edges along the path are the
      same vector, and so are its two edges across the tube. */
  lemma FaceIsParallelogram(verts: seq<Vec3>, size: real, units: seq<Vec3>, i: int, t: int)
    requires TubeLayout(verts, size, units)
    requires 0 <= i < |units| - 1 && 0 <= t < 4
    ensures var f := FaceAt(|units|, i, t);
            && 0 <= f.a < |verts| && 0 <= f.b < |verts| && 0 <= f.c < |verts| && 0 <= f.d < |verts|
            && Sub(verts[f.b], verts[f.a]) == Sub(verts[f.c], verts[f.d])
            && Sub(verts[f.d], verts[f.a]) == Sub(verts[f.c], verts[f.b])
  {
    var (ka, kb) := StripPair(t);
    var f := FaceAt(|units|, i, t);
    assert verts[f.a] == Corner(ka, size, units[i]);
    assert verts[f.b] == Corner(ka, size, units[i + 1]);
    assert verts[f.c] == Corner(kb, size, units[i + 1]);
    assert verts[f.d] == Corner(kb, size, units[i]);
  }

  /** The cross-section at every sample is the same rectangle: corner 1 is
      corner 0 plus `size * (1, 1, 0)`, corner 2 is corner 0 plus
      `size * (0, 0, 1)`, the two sides are perpendicular, of squared lengths
      `2 size^2` and `size^2`, and corner 3 closes the rectangle. */
  lemma CrossSectionRectangle(size: real, u: Vec3)
    ensures var side1 := Sub(Corner(1, size, u), Corner(0, size, u));
            var side2 := Sub(Corner(2, size, u), Corner(0, size, u));
            && side1 == Vec3(size, size, 0.0) && side2 == Vec3(0.0, 0.0, size)
            && Dot(side1, side2) == 0.0
            && Norm2(side1) == 2.0 * (size * size) && Norm2(side2) == size * size
            && Sub(Corner(3, size, u), Corner(0, size, u)) == Add(side1, side2)
  {
  }

  /** The four corners of a sample surround the path point `100.5 * u`:
      their average is exactly that point. */
  lemma CrossSectionCentre(size: real, u: Vec3)
    ensures Scale(0.25, Add(Add(Corner(0, size, u), Corner(1, size, u)),
                            Add(Corner(2, size, u), Corner(3, size, u))))
            == Scale(TubeRadius, u)
  {
  }
}
